=== FILE: README.md ===
# finprim validators in Dafny

A Dafny model of the string-level core of the TypeScript library finprim. It covers:

- IBAN validation with the ISO 7064 MOD 97-10 checksum of ISO 13616.
- Two card-number validators: the lenient `validateCardNumber` and the strict `validateCreditCard`.
- BIC validation (ISO 9362 layout).
- UK sort code and account number validation.
- Currency-code validation, and the string half of `parseMoney`: symbol detection and separator normalisation.

Every validator is a pure function from the input string to a result datatype.
The result is `Valid(…)` with the cleaned value and its display form, or `Invalid(error)`.
`error` is an enumeration with one constructor per error branch of the source.
A `Message` function renders each error as the text the library returns. For input made of characters of the Basic Multilingual Plane, this is exactly the library's text (see "## Left out" on string length).
Contracts state when a validator accepts, in a form that does not depend on the order of its checks.
They also state what its output is, relative to the input.

Modules follow the source files:

| module | file | models |
|---|---|---|
| `Text` | text.dfy | character classes, `replace(/[…]/g, '')` as `Strip`, ASCII `toUpperCase`/`toLowerCase`, `trim`, `slice` |
| `Groups` | groups.dfy | `replace(/(.{4})/g, '$1 ').trim()`, shared by the IBAN and card formatters |
| `Prefix` | prefix.dfy | anchored prefix regular expressions as data, and first-match classification |
| `Luhn` | luhn.dfy | the Luhn loop of src/card.ts and src/creditcard.ts |
| `Iban` | iban.dfy | src/iban.ts |
| `Card` | card.dfy | src/card.ts |
| `CreditCard` | creditcard.dfy | src/creditcard.ts |
| `Bic` | bic.dfy | src/bic.ts |
| `UkBank` | sortcode.dfy | src/sortcode_and_account_number.ts |
| `Currency` | currency.dfy | src/currency.ts up to the `normalised` string of `parseMoney` |
| `Cases` | cases.dfy | concrete cases from the library's tests, worked through the model |

Each check has an independent partner definition, and lemmas relate the two:

- The MOD 97-10 loop is proved equal to the remainder of the number that the digit string denotes (`Iban.Mod97`).
- The right-to-left Luhn loop is proved equal to a left-to-right sum over offsets from the right end (`Luhn.LoopMatchesOffsets`).
- The group-of-four formatter is proved equal to joining the string's four-character chunks with spaces (`Groups.FormatQuads`).
- The separator rewrite is proved equal to a description made of `Strip` (`Currency.NormaliseSeparators`).

Both checksums provably detect every single-digit substitution (`Iban.SingleDigitErrorDetected`, `Luhn.SingleDigitErrorDetected`).
For IBANs the proof rests on 10 being invertible modulo 97.

## Model

| member | source | states |
|---|---|---|
| Text.Strip | src/iban.ts:46 | removing a character class leaves none of it, and the length drops by exactly the number of characters removed |
| Text.Slice | src/creditcard.ts:26-31 | `slice` with clamped bounds equals the sequence slice whenever the bounds are in range, and is empty when they cross |
| Text.StripTwice | src/card.ts:29 | stripping a smaller class and then a larger one is the same as stripping the larger one |
| Text.Trim | src/currency.ts:84 | `trim()` leaves a string no longer than its input that does not start with white space |
| Text.TrimShape | src/currency.ts:84 | the trimmed string is a contiguous run of the input with only white space before and after it, and it does not end with white space |
| Text.ToUpper | src/iban.ts:46 | `toUpperCase()` keeps the length, leaves no lower-case letter, keeps every other character in place and maps each lower-case letter to its upper-case partner |
| Text.TrimStrip | src/currency.ts:84 | trimming changes nothing once white space is stripped anyway |
| Text.TrimKeeps | src/currency.ts:89 | trimming keeps every character that is not white space |
| Groups.Chunks | src/iban.ts:37 | the formatted groups are 1 to 4 characters long, all but the last exactly 4, and there are ⌈n/4⌉ of them |
| Groups.SpaceAfterQuads | src/iban.ts:37 | for input without line terminators, `replace(/(.{4})/g, '$1 ')` adds one space per complete run of four, and removing the spaces gives back the input |
| Groups.ConcatChunks | src/iban.ts:37 | concatenating the groups gives back the string |
| Groups.FormatQuads | src/iban.ts:36-38 | the regex-and-trim formatter equals the groups joined by single spaces; removing the spaces gives back the input; the length is n + (n-1)/4 |
| Groups.SpaceAfterQuadsShape | src/iban.ts:37 | before trimming, the regex output is the joined groups plus one trailing space exactly when the length is a positive multiple of 4 |
| Groups.FormatQuadsIsJoinedChunks | src/iban.ts:37 | `trim` removes exactly that trailing space |
| Groups.FormatQuadsGroups | src/card.ts:21 | every displayed group is four characters long except possibly the last |
| Prefix.Lit | src/card.ts:10-13 | a literal pattern such as `^4` or `^6011` matches exactly the strings that start with its text |
| Prefix.FirstMatch | src/creditcard.ts:52-53 | the result is the tag of the first rule whose pattern matches, and the default exactly when none matches |
| Luhn.Contribution | src/card.ts:46-50 | a digit's contribution to the sum is itself a digit |
| Luhn.DoubledIsDigitSum | src/card.ts:48-49 | doubling and subtracting 9 above 9 is the sum of the decimal digits of the doubled value |
| Luhn.LoopMatchesOffsets | src/card.ts:42-53 | the right-to-left loop (`LuhnSum`) equals, for every digit string, the sum in which exactly the digits at odd offsets from the right are doubled |
| Luhn.Passes | src/creditcard.ts:10-20 | `luhn(digits)` holds exactly when the offset-doubling sum is a multiple of 10 |
| Luhn.OffsetSumConcat | src/creditcard.ts:10-20 | the offset sum of a concatenation splits, with the doubling parity of the left part shifted by the right part's length |
| Luhn.ContributionInjective | src/creditcard.ts:15 | for a fixed doubling decision, different digits contribute different amounts |
| Luhn.SingleDigitErrorDetected | src/creditcard.ts:10-20 | replacing one digit of a passing number by a different digit always makes it fail |
| Iban.Mod97 | src/iban.ts:15-21 | the running-remainder loop yields the value of the whole digit string modulo 97 |
| Iban.Mod97FromValue | src/iban.ts:15-21 | the loop started from remainder r over s yields (r·10^\|s\| + value(s)) mod 97 |
| Iban.Rotate | src/iban.ts:25 | the first four characters move to the end |
| Iban.LetterCode | src/iban.ts:29-31 | a letter becomes two decimal digits whose value is its ISO 7064 code: 10 for A up to 35 for Z |
| Iban.IbanToDigits | src/iban.ts:24-34 | an `[A-Z0-9]` string becomes an all-digit string, one character longer per letter; it is the expansion of the rotated string |
| Iban.ExpandConcat | src/iban.ts:27-33 | letter expansion distributes over concatenation |
| Iban.FormatIban | src/iban.ts:36-38 | the display form is the value in space-separated groups of four, and removing the spaces gives back the value |
| Iban.ValidateIban | src/iban.ts:41-87 | valid exactly when the input is non-empty and the cleaned input has a listed country, that country's length, only `[A-Z0-9]`, and remainder 1; the value is the cleaned input and the country code is its first two letters; the display form is the value in space-separated groups of four |
| Iban.ValidateCleaned | src/iban.ts:48-86 | the ordered checks accept exactly the well-formed strings, returning the string itself, its country code and its groups of four joined by single spaces |
| Iban.CheckOrder | src/iban.ts:48-79 | each error is reported exactly when all earlier checks pass and its own check fails, with its payload pinned: the unsupported country is the cleaned input's first two characters, and the length error carries that country, its registered length and the cleaned length |
| Iban.WhitespaceOnlyTooShort | src/iban.ts:42-50 | a non-empty input of only white space passes the empty check and fails as too short |
| Iban.NormalisationInvariant | src/iban.ts:46 | lower-casing or upper-casing the input never changes the result, nor does removing its white space when something is left |
| Iban.SameCleanSameResult | src/iban.ts:46 | two non-empty inputs with the same cleaned form get the same result |
| Iban.FormattedRevalidates | src/iban.ts:81-86 | validating the display form of a valid IBAN gives the same result again |
| Iban.CleanOfCanonical | src/iban.ts:46 | an upper-case `[A-Z0-9]` string is its own cleaned form |
| Iban.TenInvertible | src/iban.ts:18 | 97 divides 10·t only when it divides t |
| Iban.SubstitutionChangesMod97 | src/iban.ts:15-21 | changing one digit of a digit string changes its remainder modulo 97 |
| Iban.ChecksumChanges | src/iban.ts:24-34 | changing one digit of an `[A-Z0-9]` string changes the remainder of its rearranged expansion |
| Iban.SingleDigitErrorDetected | src/iban.ts:75-79 | replacing any one digit of a valid IBAN by a different digit makes it invalid |
| Card.DetectNetwork | src/card.ts:9-15 | each network, in both directions, as a plain condition on the leading digits |
| Card.FormatCardNumber | src/card.ts:17-22 | other networks are shown as the digits in space-separated groups of four; Amex displays de-space to the first 15 digits (all of them when there are fewer); with at least 11 digits the Amex display is two characters longer than the digits it keeps and has spaces at positions 4 and 11 |
| Groups.AmexSlicesJoin | src/card.ts:19 | the 4-6-5 Amex slices de-space to the first 15 digits |
| Text.StripSeparators | src/card.ts:29 | `replace(/[\s-]/g, '')` (also creditcard.ts `normalise` and the sort-code cleaning) leaves no white space or hyphen, stripping again changes nothing, and input without them is returned as it is |
| Card.ValidateCardNumber | src/card.ts:24-68 | valid exactly when the input is non-empty and the normalised input has 13–19 digits and passes Luhn; `last4` is the value's last four digits; non-Amex displays de-space to the value, Amex displays de-space to its first 15 digits; the empty-input error comes exactly for the empty input, the digits-only error exactly when the normalised input is empty or not all digits, the length error (with the digit count) exactly for an all-digit string outside 13–19, and the Luhn error exactly for a 13–19-digit string failing Luhn; the display form is `formatCardNumber` of the value and its network |
| Card.ValidateDigits | src/card.ts:31-67 | on the normalised string, exactly the 13–19-digit strings passing Luhn are accepted; an empty or non-digit string gets the digits-only error, an all-digit string outside 13–19 the length error with its length, a 13–19-digit string failing Luhn the Luhn error, and the empty-input error never comes from here; `last4` is the last four digits and the display is `formatCardNumber` of the digits and their network |
| Card.UnknownNetworkAccepted | src/card.ts:59-66 | an unrecognised network never makes validation fail |
| Card.AmexFormatDropsTail | src/card.ts:17-20 | an accepted Amex-prefixed number longer than 15 digits is displayed without its digits after the fifteenth |
| CreditCard.IssuerOf | src/creditcard.ts:3-8 | `find` over the table: American Express, Visa and Discover each as a plain prefix condition, in both directions; Mastercard exactly when one of its alternatives matches |
| CreditCard.MastercardStartsWith2Or5 | src/creditcard.ts:5 | every Mastercard alternative needs a leading 2 or 5 and at least two digits |
| CreditCard.Prefix2230Unrecognised | src/creditcard.ts:5 | numbers starting 2230 match no issuer pattern |
| CreditCard.FormatCard | src/creditcard.ts:26-31 | American Express is shown as 17 characters with spaces at 4 and 11, others as 19 with spaces at 4, 9 and 14; de-spaced, the display is the first 15 or 16 digits |
| CreditCard.QuadSlicesJoin | src/creditcard.ts:30 | the 4-4-4-4 slices de-space to the first 16 digits |
| CreditCard.ValidateCreditCard | src/creditcard.ts:41-77 | valid exactly when the normalised input is all digits, has a recognised issuer and exactly that issuer's length (15 for American Express, 16 otherwise), and passes Luhn; the display form de-spaces back to the value |
| CreditCard.ValidateDigits | src/creditcard.ts:44-77 | on the normalised string, exactly the acceptable digit strings are accepted, returned with their issuer and a display that de-spaces to them |
| CreditCard.CheckOrder | src/creditcard.ts:44-69 | each error is reported exactly when all earlier checks pass and its own check fails: digits only, then 13–19 digits, then a known issuer, then its length, then Luhn |
| CreditCard.DigitsCheckOrder | src/creditcard.ts:44-69 | the same first-failing-check order stated on the normalised digits |
| CreditCard.FormattedGroups | src/creditcard.ts:26-31 | the display form is 4-6-5 for American Express and 4-4-4-4 otherwise |
| CreditCard.ShortVisaFailsOnLength | src/creditcard.ts:63-65 | a 13-digit number starting with 4 fails with the Visa 16-digit error whatever its Luhn sum |
| CreditCard.NothingLeftFails | src/creditcard.ts:42-46 | empty input, or input of only white space and hyphens, fails the digits-only check |
| CreditCard.AllZerosFail | src/creditcard.ts:52-57 | a number made only of zeros is never valid |
| Bic.MatchesBicRegex | src/bic.ts:4 | `/^[A-Z]{4}[A-Z]{2}[A-Z0-9]{2}([A-Z0-9]{3})?$/`: length 8 or 11, six upper-case letters (bank and country code), then upper-case letters or digits (location and optional branch code) |
| Bic.ValidateBic | src/bic.ts:7-38 | valid exactly when the input is non-empty and its cleaned form matches the BIC pattern; the display form de-spaces to the value, with `XXX` appended for an 8-character code; the empty-input error comes exactly for `""`, the length error (with the cleaned length) exactly for a non-empty input whose cleaned length is not 8 or 11, and the format error exactly for a non-empty input of cleaned length 8 or 11 that does not match the pattern |
| Bic.ValidateCleaned | src/bic.ts:14-37 | the ordered checks accept exactly the strings matching the pattern, and return each with its display form; the length error comes exactly for a length other than 8 or 11, the format error exactly for a non-matching string of length 8 or 11, and the empty-input error never |
| Bic.FormattedDespaces | src/bic.ts:28-36 | the four display parts de-space to the code, with the default branch filled in |
| Bic.ShortCodeFailsOnLength | src/bic.ts:14-19 | `NWBK` fails the length check with length 4 |
| Bic.NormalisationInvariant | src/bic.ts:12 | lower-casing the input never changes the result, nor does removing its white space when something is left |
| Bic.FormattedRevalidates | src/bic.ts:31-36 | validating the display form gives the 11-character code, with `XXX` for an 8-character one, and the same display form |
| Bic.AcceptedForm | src/bic.ts:28-37 | an accepted code is returned cleaned, with its bank, country, location and branch display form |
| UkBank.ValidateSortCode | src/sortcode_and_account_number.ts:5-26 | valid exactly when the input without white space and hyphens is six digits; the display form is `DD-DD-DD` and de-hyphenates back to the value; the empty-input error comes exactly for `""` and the sort-code error exactly for a non-empty input whose cleaned form is not six digits |
| UkBank.ValidateAccountNumber | src/sortcode_and_account_number.ts:29-50 | valid exactly when the input without white space is eight digits; the display form is `DDDD DDDD` and de-spaces back to the value; the empty-input error comes exactly for `""` and the account-number error exactly for a non-empty input whose cleaned form is not eight digits |
| UkBank.SortCodeFormattedRevalidates | src/sortcode_and_account_number.ts:19-25 | a displayed sort code validates to the same result |
| UkBank.AccountFormattedRevalidates | src/sortcode_and_account_number.ts:43-49 | a displayed account number validates to the same result |
| UkBank.HyphenatedAccountRejected | src/sortcode_and_account_number.ts:34-41 | any hyphen in an account number makes it invalid, unlike in a sort code |
| UkBank.SeparatorsIgnored | src/sortcode_and_account_number.ts:10 | non-empty inputs that differ only in white space and hyphens get the same sort-code result |
| UkBank.AcceptedSortCode | src/sortcode_and_account_number.ts:19-25 | an accepted sort code is its six digits, displayed in hyphen-joined pairs |
| Currency.SupportedCodes | src/currency.ts:3-5 | the list is exactly `GBP`, `EUR`, `USD`, `JPY`, `CHF`, `CAD`, `AUD`, `NZD`, and a string is in it exactly when it spells a code |
| Currency.CodeOf | src/currency.ts:3-5 | a string names a code exactly when it is that code's spelling |
| Currency.CodeRoundTrip | src/currency.ts:3-5 | spelling a code and reading it back is the identity, and only its spelling reads as it |
| Currency.SupportedCodesComplete | src/currency.ts:28 | a string is in the supported list exactly when it spells one of the codes |
| Currency.ValidateCurrencyCode | src/currency.ts:25-40 | valid exactly when the upper-cased input spells a supported code; value and display form are both the upper-cased input; otherwise the error carries the input as given |
| Currency.AnyCaseAccepted | src/currency.ts:26-39 | any spelling that upper-cases to a code validates to that code |
| Currency.LowerCaseGbp | src/currency.ts:26-39 | `gbp` validates to `GBP` |
| Currency.CaseInsensitive | src/currency.ts:26 | lower-casing the input never changes whether it validates |
| Currency.DetectSymbol | src/currency.ts:86-92 | the detected entry is the first one whose symbol is a prefix or a suffix; none is detected exactly when no symbol is either |
| Currency.IndexFrom | src/currency.ts:89 | the first position at or after `from` where the symbol occurs, or none when it does not occur |
| Currency.RemoveFirst | src/currency.ts:89 | a string without the symbol is left alone; otherwise putting the symbol back where it first occurred gives the string back |
| Currency.RemoveFirstPrefix | src/currency.ts:89 | a symbol that is a prefix is removed there |
| Currency.RemoveFirstInverse | src/currency.ts:89 | removing the first occurrence undoes inserting a symbol that does not already occur earlier |
| Currency.FirstOccurrenceRemoved | src/currency.ts:89 | in `$5$` only the leading `$` is removed |
| Currency.LastSeparator | src/currency.ts:100 | the position of the last `,` or `.`, or -1 when there is none |
| Currency.RewriteAway | src/currency.ts:99-102 | away from the last separator the replacement callback drops every `[,.\s]` character and keeps the rest |
| Currency.RewriteAtLast | src/currency.ts:99-102 | at the last separator the callback writes `.`, so the rewrite is the stripped text before it, `.`, then the stripped text after it |
| Currency.NormaliseSeparators | src/currency.ts:99-102 | with no separator the rewrite drops every `[,.\s]` character; otherwise it is what precedes the last separator, stripped, then `.`, then what follows, stripped |
| Currency.NormalisedShape | src/currency.ts:99-102 | the normalised string has no `,` and no white space, keeps every other character in order, and has a `.` exactly when the amount had a separator |
| Currency.AtMostOnePoint | src/currency.ts:99-102 | at most one `.` survives |
| Currency.Rank | src/currency.ts:72-81 | each currency's entry in the symbol table |
| Currency.Amount | src/currency.ts:89-102 | the amount text loses its `[,.\s]` characters apart from at most one `.`, which appears exactly when a separator did |
| Currency.ScanMoney | src/currency.ts:71-102 | detection fails exactly when no table symbol is a prefix or suffix of the trimmed input; otherwise the currency's symbol marks it, no earlier symbol does, and the amount is read from the input with that symbol's first occurrence removed |
| Currency.DollarSuffixMeansUsd | src/currency.ts:72-92 | an input ending in `$` (including `A$`, `CA$` or `NZ$`) and not starting with £ or € is read as US dollars |
| Currency.DollarVariantsOnlyAsPrefix | src/currency.ts:72-92 | Canadian, Australian and New Zealand dollars are detected only from a leading symbol |
| Currency.BlankInputFails | src/currency.ts:84-96 | empty or all-white-space input fails currency detection |
| Cases.BicLowerCase | src/__tests__/bic.test.ts:21-25 | `nwbkgb2l` validates to `NWBKGB2L`, displayed `NWBK GB 2L XXX` |
| Cases.SortCodeHyphenated | src/__tests__/sortcode.test.ts:5-12 | `60-16-13` validates to `601613`, displayed `60-16-13` |
| Cases.ThousandsSeparator | src/currency.ts:99-102 | `1,000.50` normalises to `1000.50` |
| Cases.PoundAmount | src/__tests__/currency.test.ts:62-69 | `£1,000.50` is read as sterling with amount text `1000.50` |

## Left out

- `parseFloat`, the floating-point `amount` and the "Could not parse amount" error of `parseMoney` are not modelled. They are floating-point behaviour. The model stops at the `normalised` string.
- `formatCurrency` and `CURRENCY_LOCALES` are not modelled. They are a call into `Intl.NumberFormat` and its locale data, a foreign library. `parseMoney`'s `formatted` field therefore is not modelled either.
- The `typeof input !== 'string'` half of each `!input || typeof input !== 'string'` guard is not modelled. Inputs are Dafny strings, so only the empty-string case remains, and it is modelled.
- `\s`, `trim`, `toUpperCase` and `toLowerCase` are modelled on ASCII. `\s` and `trim` cover space, tab, line feed, carriage return, vertical tab and form feed. The other Unicode white space and the non-ASCII case mappings of JavaScript are not modelled.
- Strings are modelled as sequences of Unicode scalar values. JavaScript's `.length`, `slice` and the `.{4}` grouping count UTF-16 code units instead. The two agree on characters of the Basic Multilingual Plane. Outside it, each such character counts once here and twice in the library. So the length checks, the `got` payload of the IBAN length error and the grouping can differ on such input. For example, the library reports `NWBKGB2` followed by one emoji as a 9-character BIC, while the model sees 8 characters and reports a format error.
- Error texts are modelled as `Message` functions over the error enumerations. They carry no contracts.
- The React hooks, zod schemas, demo and example apps, chatbot and bundled `dist/` copies are not part of this model. They wrap or duplicate the validators modelled here.
- Groups.FormatQuads: requires input without white space. The regex `.` skips line terminators, and every caller has already removed white space or checked for digits.
- Iban.FormatIban: requires input without white space, for the same reason.
- Card.FormatCardNumber: requires an all-digit string, which is the only input it receives.
- Iban.Mod97: requires an all-digit string. On anything else `parseInt` would yield NaN. Its only caller passes the expansion of an `[A-Z0-9]` string.
- Luhn.LuhnSum: requires an all-digit string, which is what both callers pass after their digits-only check.

=== FILE: bic.dfy ===
/** BIC validation (src/bic.ts), following the ISO 9362 layout: a 4-letter
    bank code, a 2-letter country code, a 2-character location code and an
    optional 3-character branch code. */
module Bic {
  import opened Text

  datatype BicError = EmptyInput | BadLength(got: nat) | BadFormat

  datatype BicResult = Valid(value: string, formatted: string) | Invalid(error: BicError)

  function Message(e: BicError): string
  {
    match e
    case EmptyInput => "Input must be a non-empty string"
    case BadLength(got) => "BIC must be 8 or 11 characters. Got " + NatToString(got)
    case BadFormat =>
      "Invalid BIC format. Expected: 4 letters + 2 letters + 2 alphanumeric + optional 3 alphanumeric"
  }

  /** `BIC_REGEX`, `^[A-Z]{4}[A-Z]{2}[A-Z0-9]{2}([A-Z0-9]{3})?$`. */
  predicate MatchesBicRegex(s: string): (r: bool)
    ensures r <==>
      && (|s| == 8 || |s| == 11)
      && AllUpper(s[..4])          // bank code
      && AllUpper(s[4..6])         // country code
      && AllUpperAlnum(s[6..8])    // location code
      && AllUpperAlnum(s[8..])     // optional branch code
  {
    && (|s| == 8 || |s| == 11)
    && (forall i :: 0 <= i < 6 ==> IsUpper(s[i]))
    && (forall i :: 6 <= i < |s| ==> IsUpperAlnum(s[i]))
  }

  /** `input.replace(/\s/g, '').toUpperCase()`. */
  function Clean(input: string): string
  {
    ToUpper(Strip(input, Whitespace))
  }

  /** The branch code, with `XXX` (head office) when the 8-character form is used. */
  function Branch(cleaned: string): string
  {
    if |cleaned| == 11 then cleaned[8..11] else "XXX"
  }

  /** The display form: bank, country, location and branch codes separated
      by single spaces. */
  function Format(cleaned: string): string
    requires |cleaned| >= 8
  {
    cleaned[0..4] + " " + cleaned[4..6] + " " + cleaned[6..8] + " " + Branch(cleaned)
  }

  /** `validateBIC`. */
  function ValidateBic(input: string): (r: BicResult)
    ensures r.Valid? <==> input != "" && MatchesBicRegex(Clean(input))
    ensures r.Valid? ==> r.value == Clean(input)
    ensures r.Valid? ==> Strip(r.formatted, {' '}) == (if |r.value| == 11 then r.value else r.value + "XXX")
    ensures r.Valid? ==> |r.formatted| == 14 && r.formatted[4] == ' ' && r.formatted[7] == ' ' && r.formatted[10] == ' '
    ensures r == Invalid(EmptyInput) <==> input == ""
    ensures r == Invalid(BadLength(|Clean(input)|)) <==> input != "" && |Clean(input)| != 8 && |Clean(input)| != 11
    ensures r == Invalid(BadFormat) <==> input != "" && (|Clean(input)| == 8 || |Clean(input)| == 11) && !MatchesBicRegex(Clean(input))
  {
    if input == "" then Invalid(EmptyInput) else ValidateCleaned(Clean(input))
  }

  /** The checks of `validateBIC` after cleaning, in order. */
  function ValidateCleaned(cleaned: string): (r: BicResult)
    ensures r.Valid? <==> MatchesBicRegex(cleaned)
    ensures r.Valid? ==> r.value == cleaned
    ensures r.Valid? ==> Strip(r.formatted, {' '}) == (if |cleaned| == 11 then cleaned else cleaned + "XXX")
    ensures r.Valid? ==> |r.formatted| == 14 && r.formatted[4] == ' ' && r.formatted[7] == ' ' && r.formatted[10] == ' '
    ensures r == Invalid(BadLength(|cleaned|)) <==> |cleaned| != 8 && |cleaned| != 11
    ensures r == Invalid(BadFormat) <==> (|cleaned| == 8 || |cleaned| == 11) && !MatchesBicRegex(cleaned)
    ensures r != Invalid(EmptyInput)
  {
    if |cleaned| != 8 && |cleaned| != 11 then Invalid(BadLength(|cleaned|))
    else if !MatchesBicRegex(cleaned) then Invalid(BadFormat)
    else
      FormattedDespaces(cleaned);
      Valid(cleaned, Format(cleaned))
  }

  // ----- Lemmas -----

  lemma FormattedDespaces(c: string)
    requires MatchesBicRegex(c)
    ensures Strip(Format(c), {' '}) == (if |c| == 11 then c else c + "XXX")
  {
    var e := Branch(c);
    assert NoneIn(c, {' '});
    assert NoneIn(e, {' '});
    JoinFourDespaces(c[0..4], c[4..6], c[6..8], e);
    if |c| == 11 {
      assert c[0..4] + c[4..6] + c[6..8] + e == c;
    } else {
      assert c[0..4] + c[4..6] + c[6..8] == c;
    }
  }

  lemma JoinFourDespaces(a: string, b: string, d: string, e: string)
    requires NoneIn(a, {' '}) && NoneIn(b, {' '}) && NoneIn(d, {' '}) && NoneIn(e, {' '})
    ensures Strip(a + " " + b + " " + d + " " + e, {' '}) == a + b + d + e
  {
    StripAround(a + " " + b + " " + d, ' ', e, {' '});
    StripAround(a + " " + b, ' ', d, {' '});
    StripAround(a, ' ', b, {' '});
    StripNoop(a, {' '});
    StripNoop(b, {' '});
    StripNoop(d, {' '});
    StripNoop(e, {' '});
  }

  /** The length check comes first: `NWBK` fails with the "8 or 11" error. */
  lemma ShortCodeFailsOnLength()
    ensures ValidateBic("NWBK") == Invalid(BadLength(4))
  {
    assert NoneIn("NWBK", Whitespace);
    StripNoop("NWBK", Whitespace);
  }

  /** Lower-case input and input with white space removed validate exactly
      as the original does. */
  lemma NormalisationInvariant(input: string)
    ensures ValidateBic(ToLower(input)) == ValidateBic(input)
    ensures Strip(input, Whitespace) != "" ==> ValidateBic(Strip(input, Whitespace)) == ValidateBic(input)
  {
    var s := Strip(input, Whitespace);
    if input != "" {
      StripToLower(input, Whitespace);
      UpperOfLower(s);
      assert Clean(ToLower(input)) == Clean(input);
      assert |ToLower(input)| == |input|;
      if s != "" {
        StripTwice(input, Whitespace, Whitespace);
      }
    } else {
      assert ToLower(input) == input;
    }
  }

  /** Validating the formatted form again gives the 11-character value,
      with the default branch `XXX` filled in for an 8-character code, and
      the same formatted form. */
  lemma FormattedRevalidates(input: string)
    requires ValidateBic(input).Valid?
    ensures var r := ValidateBic(input);
      ValidateBic(r.formatted) == Valid(if |r.value| == 11 then r.value else r.value + "XXX", r.formatted)
  {
    var r := ValidateBic(input);
    var v := r.value;
    var w := if |v| == 11 then v else v + "XXX";
    CleanOfFormatted(r.formatted, w);
    assert MatchesBicRegex(w);
    SameFormat(v, w);
  }

  /** A display form cleans back to the 11-character code it spells. */
  lemma CleanOfFormatted(f: string, w: string)
    requires Strip(f, {' '}) == w && AllUpperAlnum(w)
    ensures Clean(f) == w
  {
    StripTwice(f, {' '}, Whitespace);
    assert NoneIn(w, Whitespace);
    StripNoop(w, Whitespace);
    ToUpperIdentity(w);
  }

  lemma SameFormat(v: string, w: string)
    requires MatchesBicRegex(v)
    requires w == if |v| == 11 then v else v + "XXX"
    ensures Format(w) == Format(v)
  {
    assert w[0..4] == v[0..4] && w[4..6] == v[4..6] && w[6..8] == v[6..8];
    if |v| == 8 {
      assert w[8..11] == "XXX";
    }
  }

  /** An accepted code is returned cleaned, with its display form. */
  lemma AcceptedForm(input: string)
    requires input != "" && MatchesBicRegex(Clean(input))
    ensures ValidateBic(input) == Valid(Clean(input), Format(Clean(input)))
  {
  }
}

=== FILE: card.dfy ===
/** The lenient card validator of src/card.ts: digits only, 13 to 19 of
    them, the Luhn check, and a network read off the prefix that never makes
    validation fail. */
module Card {
  import opened Text
  import opened Prefix
  import Luhn
  import Groups

  datatype Network = Visa | Mastercard | Amex | Discover | Unknown

  /** The tests of `detectNetwork`, in the order it makes them. */
  const NetworkRules: seq<Rule<Network>> := [
    Rule(Visa, [Lit("4")]),
    Rule(Mastercard, [[Is('5'), Range('1', '5')], [Is('2'), Range('2', '7')]]),
    Rule(Amex, [[Is('3'), OneOf({'4', '7'})]]),
    Rule(Discover, [Lit("6011"), Lit("65")])
  ]

  /** `detectNetwork`: the first rule whose prefix matches, else `Unknown`.
      Read as plain prefix conditions, each holds in both directions; the
      prefixes of different networks never overlap, so the order of the
      tests only decides `Unknown`. */
  function DetectNetwork(d: string): (r: Network)
    ensures r == Visa <==> |d| >= 1 && d[0] == '4'
    ensures r == Mastercard <==>
      |d| >= 2 && ((d[0] == '5' && '1' <= d[1] <= '5') || (d[0] == '2' && '2' <= d[1] <= '7'))
    ensures r == Amex <==> |d| >= 2 && d[0] == '3' && (d[1] == '4' || d[1] == '7')
    ensures r == Discover <==> HasPrefix(d, "6011") || HasPrefix(d, "65")
  {
    var rs := NetworkRules;
    assert rs[0].alts == [Lit("4")] && rs[3].alts == [Lit("6011"), Lit("65")];
    assert MatchesAny(rs[0].alts, d) <==> Matches(rs[0].alts[0], d);
    assert MatchesAny(rs[1].alts, d) <==> Matches(rs[1].alts[0], d) || Matches(rs[1].alts[1], d);
    assert MatchesAny(rs[2].alts, d) <==> Matches(rs[2].alts[0], d);
    assert MatchesAny(rs[3].alts, d) <==> Matches(rs[3].alts[0], d) || Matches(rs[3].alts[1], d);
    assert Matches(rs[1].alts[0], d) <==> |d| >= 2 && d[0] == '5' && '1' <= d[1] <= '5';
    assert Matches(rs[1].alts[1], d) <==> |d| >= 2 && d[0] == '2' && '2' <= d[1] <= '7';
    assert Matches(rs[2].alts[0], d) <==> |d| >= 2 && d[0] == '3' && (d[1] == '4' || d[1] == '7');
    FirstMatch(rs, d, Unknown)
  }

  /** `formatCardNumber`: 4-6-5 slices for Amex, runs of four otherwise. */
  function FormatCardNumber(digits: string, network: Network): (r: string)
    requires AllDigits(digits)
    ensures network != Amex ==> r == Groups.JoinSpaced(Groups.Chunks(digits))
    ensures network != Amex ==> Strip(r, {' '}) == digits
    ensures network == Amex ==> Strip(r, {' '}) == Slice(digits, 0, 15)
    ensures network == Amex && |digits| >= 11 ==> |r| == (if |digits| < 15 then |digits| else 15) + 2 && r[4] == ' ' && r[11] == ' '
  {
    if network == Amex then
      var a, b, c := Slice(digits, 0, 4), Slice(digits, 4, 10), Slice(digits, 10, 15);
      Groups.AmexSlicesJoin(digits);
      a + " " + b + " " + c
    else
      DigitsHaveNoWhitespace(digits);
      Groups.FormatQuads(digits)
  }

  datatype CardError = EmptyInput | NonDigit | BadLength(got: nat) | LuhnFailed

  datatype CardResult =
    | Valid(value: string, formatted: string, network: Network, last4: string)
    | Invalid(error: CardError)

  function Message(e: CardError): string
  {
    match e
    case EmptyInput => "Input must be a non-empty string"
    case NonDigit => "Card number must contain only digits"
    case BadLength(got) => "Card number length invalid. Expected 13-19 digits, got " + NatToString(got)
    case LuhnFailed => "Card number failed Luhn check — this is not a valid card number"
  }

  /** What the validator accepts, with the Luhn condition read by offsets
      from the right rather than as the loop computes it. */
  predicate Acceptable(d: string)
  {
    && 13 <= |d| <= 19
    && AllDigits(d)
    && Luhn.OffsetSum(d, false) % 10 == 0
  }

  /** `validateCardNumber`. */
  function ValidateCardNumber(input: string): (r: CardResult)
    ensures r.Valid? <==> input != "" && Acceptable(StripSeparators(input))
    ensures r.Valid? ==> r.value == StripSeparators(input) && r.network == DetectNetwork(r.value)
    ensures r.Valid? ==> |r.last4| == 4 && r.value == r.value[..|r.value| - 4] + r.last4
    ensures r.Valid? ==> r.formatted == FormatCardNumber(r.value, r.network)
    ensures r.Valid? && r.network != Amex ==> Strip(r.formatted, {' '}) == r.value
    ensures r.Valid? && r.network == Amex ==> Strip(r.formatted, {' '}) == r.value[..if |r.value| < 15 then |r.value| else 15]
    ensures r == Invalid(EmptyInput) <==> input == ""
    ensures var d := StripSeparators(input);
      r == Invalid(NonDigit) <==> input != "" && (d == "" || !AllDigits(d))
    ensures var d := StripSeparators(input);
      r == Invalid(BadLength(|d|)) <==> input != "" && d != "" && AllDigits(d) && (|d| < 13 || |d| > 19)
    ensures var d := StripSeparators(input);
      r == Invalid(LuhnFailed) <==> input != "" && AllDigits(d) && 13 <= |d| <= 19 && Luhn.OffsetSum(d, false) % 10 != 0
  {
    if input == "" then Invalid(EmptyInput) else ValidateDigits(StripSeparators(input))
  }

  /** The checks of `validateCardNumber` on the normalised string, in order. */
  function ValidateDigits(digits: string): (r: CardResult)
    ensures r.Valid? <==> Acceptable(digits)
    ensures r.Valid? ==> r.value == digits && r.network == DetectNetwork(digits)
    ensures r.Valid? ==> |r.last4| == 4 && r.value == r.value[..|r.value| - 4] + r.last4
    ensures r.Valid? ==> r.formatted == FormatCardNumber(r.value, r.network)
    ensures r.Valid? && r.network != Amex ==> Strip(r.formatted, {' '}) == r.value
    ensures r.Valid? && r.network == Amex ==> Strip(r.formatted, {' '}) == Slice(r.value, 0, 15)
    ensures r == Invalid(NonDigit) <==> digits == "" || !AllDigits(digits)
    ensures r == Invalid(BadLength(|digits|)) <==> digits != "" && AllDigits(digits) && (|digits| < 13 || |digits| > 19)
    ensures r == Invalid(LuhnFailed) <==>
      AllDigits(digits) && 13 <= |digits| <= 19 && Luhn.OffsetSum(digits, false) % 10 != 0
    ensures r != Invalid(EmptyInput)
  {
    if !(|digits| > 0 && AllDigits(digits)) then Invalid(NonDigit)
    else if |digits| < 13 || |digits| > 19 then Invalid(BadLength(|digits|))
    else if !Luhn.Passes(digits) then Invalid(LuhnFailed)
    else
      var network := DetectNetwork(digits);
      var last4 := digits[|digits| - 4..];
      assert digits == digits[..|digits| - 4] + last4;
      Valid(digits, FormatCardNumber(digits, network), network, last4)
  }

  // ----- Lemmas -----

  lemma DigitsHaveNoWhitespace(d: string)
    requires AllDigits(d)
    ensures NoneIn(d, Whitespace)
  {
  }

  /** A network the prefixes do not recognise is still accepted. */
  lemma UnknownNetworkAccepted(input: string)
    requires input != "" && Acceptable(StripSeparators(input))
    requires DetectNetwork(StripSeparators(input)) == Unknown
    ensures ValidateCardNumber(input).Valid? && ValidateCardNumber(input).network == Unknown
  {
  }

  /** An Amex-prefixed number longer than 15 digits is accepted, but its
      formatted form keeps only the first 15 digits. */
  lemma AmexFormatDropsTail(input: string)
    requires ValidateCardNumber(input).Valid? && ValidateCardNumber(input).network == Amex
    requires |ValidateCardNumber(input).value| > 15
    ensures Strip(ValidateCardNumber(input).formatted, {' '}) == ValidateCardNumber(input).value[..15]
    ensures Strip(ValidateCardNumber(input).formatted, {' '}) != ValidateCardNumber(input).value
  {
  }
}

=== FILE: cases.dfy ===
/** Concrete cases from the library's own test suite, worked through the
    model. */
module Cases {
  import opened Text
  import Bic
  import UkBank
  import Currency

  /** Lower-case input is accepted and upper-cased; the 8-character form is
      displayed with the head-office branch `XXX`. */
  lemma BicLowerCase()
    ensures Bic.ValidateBic("nwbkgb2l") == Bic.Valid("NWBKGB2L", "NWBK GB 2L XXX")
  {
    BicCleaned();
    BicPattern();
    Bic.AcceptedForm("nwbkgb2l");
    BicFormatted();
  }

  lemma BicPattern()
    ensures Bic.MatchesBicRegex("NWBKGB2L")
  {
  }

  lemma BicFormatted()
    ensures Bic.Format("NWBKGB2L") == "NWBK GB 2L XXX"
  {
  }

  lemma BicCleaned()
    ensures Bic.Clean("nwbkgb2l") == "NWBKGB2L"
  {
    BicUnspaced();
    BicUpper();
  }

  lemma BicUnspaced()
    ensures Strip("nwbkgb2l", Whitespace) == "nwbkgb2l"
  {
    assert NoneIn("nwbkgb2l", Whitespace);
    StripNoop("nwbkgb2l", Whitespace);
  }

  lemma BicUpper()
    ensures ToUpper("nwbkgb2l") == "NWBKGB2L"
  {
    ToUpperConcat("nwbk", "gb2l");
    assert "nwbk" + "gb2l" == "nwbkgb2l";
    assert ToUpper("nwbk") == "NWBK";
    assert UpperChar('2') == '2';
    assert ToUpper("gb2l") == "GB2L";
  }

  /** A hyphenated sort code is read as its six digits and displayed as
      written. */
  lemma SortCodeHyphenated()
    ensures UkBank.ValidateSortCode("60-16-13") == UkBank.Valid("601613", "60-16-13")
  {
    SortCodeCleaned();
    SortCodeDigits();
    UkBank.AcceptedSortCode("60-16-13");
    SortCodeDisplayed();
  }

  lemma SortCodeDigits()
    ensures UkBank.Digits("601613", 6)
  {
  }

  lemma SortCodeDisplayed()
    ensures var c := "601613"; c[0..2] + "-" + c[2..4] + "-" + c[4..6] == "60-16-13"
  {
    var c := "601613";
    assert c[0..2] == "60" && c[2..4] == "16" && c[4..6] == "13";
  }

  lemma SortCodeCleaned()
    ensures UkBank.CleanSortCode("60-16-13") == "601613"
  {
    assert "60-16-13" == "60-16" + ['-'] + "13";
    assert "60-16" == "60" + ['-'] + "16";
    StripAround("60-16", '-', "13", WhitespaceOrHyphen);
    StripAround("60", '-', "16", WhitespaceOrHyphen);
    PairsUnchanged();
  }

  lemma PairsUnchanged()
    ensures Strip("60", WhitespaceOrHyphen) == "60"
    ensures Strip("16", WhitespaceOrHyphen) == "16"
    ensures Strip("13", WhitespaceOrHyphen) == "13"
  {
    StripNoop("60", WhitespaceOrHyphen);
    StripNoop("16", WhitespaceOrHyphen);
    StripNoop("13", WhitespaceOrHyphen);
  }

  /** The thousands separator goes and the decimal point stays. */
  lemma ThousandsSeparator()
    ensures Currency.NormaliseSeparators("1,000.50") == "1000.50"
  {
    var s := "1,000.50";
    PointIsLastSeparator();
    assert s[..5] == "1,000" && s[6..] == "50";
    ThousandsStripped();
  }

  lemma PointIsLastSeparator()
    ensures Currency.LastSeparator("1,000.50") == 5
  {
    var s := "1,000.50";
    assert s[5] == '.' && s[6] == '5' && s[7] == '0';
    assert s[5] in Currency.Separators;
  }

  lemma ThousandsStripped()
    ensures Strip("1,000", Currency.Rewritten) == "1000"
    ensures Strip("50", Currency.Rewritten) == "50"
  {
    assert "1,000" == "1" + [','] + "000";
    StripAround("1", ',', "000", Currency.Rewritten);
    StripNoop("1", Currency.Rewritten);
    StripNoop("000", Currency.Rewritten);
    StripNoop("50", Currency.Rewritten);
  }

  /** A leading pound sign gives sterling and the amount text `1000.50`. */
  lemma PoundAmount()
    ensures Currency.ScanMoney("\U{00A3}1,000.50") == Currency.Scanned(Currency.GBP, "1000.50")
  {
    var t := "\U{00A3}1,000.50";
    PoundTrimmed();
    PoundMarked();
    var r := Currency.ScanMoney(t);
    assert Currency.Rank(r.currency) == 0;
    PoundAmountText();
  }

  lemma PoundTrimmed()
    ensures Trim("\U{00A3}1,000.50") == "\U{00A3}1,000.50"
  {
  }

  lemma PoundMarked()
    ensures Currency.Marks("\U{00A3}1,000.50", Currency.SymbolTable[0].0)
    ensures Currency.SymbolOf(Currency.GBP) == "\U{00A3}"
  {
  }

  lemma PoundAmountText()
    ensures Currency.Amount("\U{00A3}1,000.50", "\U{00A3}") == "1000.50"
  {
    var t := "\U{00A3}1,000.50";
    Currency.RemoveFirstPrefix(t, "\U{00A3}");
    assert t[1..] == "1,000.50";
    assert Trim("1,000.50") == "1,000.50";
    ThousandsSeparator();
  }
}

=== FILE: creditcard.dfy ===
/** The strict card validator of src/creditcard.ts. Unlike src/card.ts it
    rejects an unrecognised issuer and insists on exactly 15 digits for
    American Express and exactly 16 for every other issuer. */
module CreditCard {
  import opened Text
  import opened Prefix
  import Luhn
  import Groups

  datatype Issuer = Visa | Mastercard | AmericanExpress | Discover | Unknown

  const AnyDigit: Class := Range('0', '9')

  /** `ISSUER_PATTERNS`, in table order, each regular expression written out
      as its alternatives:
      `^3[47]`;
      `^(5[1-5]|2(2[2-9][1-9]|[3-6]\d{2}|7[01]\d|720))`;
      `^4`;
      `^(6011|64[4-9]|65)`. */
  const IssuerPatterns: seq<Rule<Issuer>> := [
    Rule(AmericanExpress, [[Is('3'), OneOf({'4', '7'})]]),
    Rule(Mastercard, [
      [Is('5'), Range('1', '5')],
      [Is('2'), Is('2'), Range('2', '9'), Range('1', '9')],
      [Is('2'), Range('3', '6'), AnyDigit, AnyDigit],
      [Is('2'), Is('7'), OneOf({'0', '1'}), AnyDigit],
      Lit("2720")
    ]),
    Rule(Visa, [Lit("4")]),
    Rule(Discover, [Lit("6011"), [Is('6'), Is('4'), Range('4', '9')], Lit("65")])
  ]

  /** `ISSUER_PATTERNS.find(…)?.issuer ?? 'Unknown'`, read as plain prefix
      conditions. Only American Express numbers start with 3 and only Visa
      numbers with 4, so the table order never changes the outcome. */
  function IssuerOf(d: string): (r: Issuer)
    ensures r == AmericanExpress <==> |d| >= 2 && d[0] == '3' && (d[1] == '4' || d[1] == '7')
    ensures r == Visa <==> |d| >= 1 && d[0] == '4'
    ensures r == Mastercard <==> MatchesAny(IssuerPatterns[1].alts, d)
    ensures r == Discover <==>
      HasPrefix(d, "6011") || HasPrefix(d, "65") || (|d| >= 3 && d[..2] == "64" && '4' <= d[2] <= '9')
  {
    var rs := IssuerPatterns;
    assert rs[2].alts == [Lit("4")];
    assert MatchesAny(rs[0].alts, d) <==> Matches(rs[0].alts[0], d);
    assert MatchesAny(rs[2].alts, d) <==> Matches(rs[2].alts[0], d);
    assert MatchesAny(rs[3].alts, d) <==> Matches(rs[3].alts[0], d) || Matches(rs[3].alts[1], d) || Matches(rs[3].alts[2], d);
    assert Matches(rs[0].alts[0], d) <==> |d| >= 2 && d[0] == '3' && (d[1] == '4' || d[1] == '7');
    assert Matches(rs[3].alts[1], d) <==> |d| >= 3 && d[..2] == "64" && '4' <= d[2] <= '9' by {
      if |d| >= 3 && d[0] == '6' && d[1] == '4' {
        assert d[..2] == "64";
      }
    }
    MastercardStartsWith2Or5(d);
    FirstMatch(rs, d, Unknown)
  }

  /** `formatCard`: slices 4-6-5 for American Express, 4-4-4-4 otherwise.
      Without its spaces the display is the first 15 (American Express) or
      16 digits, and digits beyond those are not shown. */
  function FormatCard(digits: string, issuer: Issuer): (r: string)
    ensures AllDigits(digits) && issuer == AmericanExpress ==> Strip(r, {' '}) == Slice(digits, 0, 15)
    ensures AllDigits(digits) && issuer != AmericanExpress ==> Strip(r, {' '}) == Slice(digits, 0, 16)
    ensures issuer == AmericanExpress && |digits| >= 15 ==> |r| == 17 && r[4] == ' ' && r[11] == ' '
    ensures issuer != AmericanExpress && |digits| >= 16 ==> |r| == 19 && r[4] == ' ' && r[9] == ' ' && r[14] == ' '
  {
    if issuer == AmericanExpress then
      var a, b, c := Slice(digits, 0, 4), Slice(digits, 4, 10), Slice(digits, 10, 15);
      assert AllDigits(digits) ==> Strip(a + " " + b + " " + c, {' '}) == Slice(digits, 0, 15) by {
        if AllDigits(digits) {
          Groups.AmexSlicesJoin(digits);
        }
      }
      a + " " + b + " " + c
    else
      var a, b, c, e := Slice(digits, 0, 4), Slice(digits, 4, 8), Slice(digits, 8, 12), Slice(digits, 12, 16);
      assert AllDigits(digits) ==> Strip(a + " " + b + " " + c + " " + e, {' '}) == Slice(digits, 0, 16) by {
        if AllDigits(digits) {
          QuadSlicesJoin(digits);
        }
      }
      a + " " + b + " " + c + " " + e
  }

  datatype CreditCardError =
    | NonDigit
    | BadLength(got: nat)
    | UnrecognisedIssuer
    | AmexLength(got: nat)
    | IssuerLength(issuer: Issuer, got: nat)
    | LuhnFailed

  datatype CreditCardResult =
    | Valid(value: string, formatted: string, issuer: Issuer)
    | Invalid(error: CreditCardError)

  function IssuerName(i: Issuer): string
  {
    match i
    case Visa => "Visa"
    case Mastercard => "Mastercard"
    case AmericanExpress => "AmericanExpress"
    case Discover => "Discover"
    case Unknown => "Unknown"
  }

  function Message(e: CreditCardError): string
  {
    match e
    case NonDigit => "Card number must contain only digits, spaces, or hyphens"
    case BadLength(got) => "Card number length is invalid (got " + NatToString(got) + ", expected 13–19)"
    case UnrecognisedIssuer => "Unrecognised card issuer"
    case AmexLength(got) => "American Express cards must be 15 digits (got " + NatToString(got) + ")"
    case IssuerLength(issuer, got) => IssuerName(issuer) + " cards must be 16 digits (got " + NatToString(got) + ")"
    case LuhnFailed => "Card number failed Luhn check"
  }

  /** The length each recognised issuer requires. */
  function RequiredLength(i: Issuer): nat
  {
    if i == AmericanExpress then 15 else 16
  }

  /** What the validator accepts, stated without the order of its checks. */
  predicate Acceptable(d: string)
  {
    && AllDigits(d)
    && IssuerOf(d) != Unknown
    && |d| == RequiredLength(IssuerOf(d))
    && Luhn.OffsetSum(d, false) % 10 == 0
  }

  /** `validateCreditCard`. */
  function ValidateCreditCard(input: string): (r: CreditCardResult)
    ensures r.Valid? <==> Acceptable(StripSeparators(input))
    ensures r.Valid? ==> r.value == StripSeparators(input) && r.issuer == IssuerOf(r.value) && r.issuer != Unknown
    ensures r.Valid? ==> |r.value| == RequiredLength(r.issuer)
    ensures r.Valid? ==> Strip(r.formatted, {' '}) == r.value
  {
    ValidateDigits(StripSeparators(input))
  }

  /** The checks of `validateCreditCard` on the normalised string, in order. */
  function ValidateDigits(digits: string): (r: CreditCardResult)
    ensures r.Valid? <==> Acceptable(digits)
    ensures r.Valid? ==> r.value == digits && r.issuer == IssuerOf(digits) && r.issuer != Unknown
    ensures r.Valid? ==> |r.value| == RequiredLength(r.issuer)
    ensures r.Valid? ==> Strip(r.formatted, {' '}) == r.value
  {
    if !(|digits| > 0 && AllDigits(digits)) then Invalid(NonDigit)
    else if |digits| < 13 || |digits| > 19 then Invalid(BadLength(|digits|))
    else
      var issuer := IssuerOf(digits);
      if issuer == Unknown then Invalid(UnrecognisedIssuer)
      else if issuer == AmericanExpress && |digits| != 15 then Invalid(AmexLength(|digits|))
      else if issuer != AmericanExpress && |digits| != 16 then Invalid(IssuerLength(issuer, |digits|))
      else
        Luhn.LoopMatchesOffsets(digits, false);
        if !Luhn.Passes(digits) then Invalid(LuhnFailed)
        else
          assert Slice(digits, 0, RequiredLength(issuer)) == digits;
          Valid(digits, FormatCard(digits, issuer), issuer)
  }

  /** The display form: 4-6-5 for American Express, 4-4-4-4 for the others. */
  lemma FormattedGroups(input: string)
    requires ValidateCreditCard(input).Valid?
    ensures var r := ValidateCreditCard(input);
      && (r.issuer == AmericanExpress ==> r.formatted == r.value[..4] + " " + r.value[4..10] + " " + r.value[10..])
      && (r.issuer != AmericanExpress ==>
            r.formatted == r.value[..4] + " " + r.value[4..8] + " " + r.value[8..12] + " " + r.value[12..])
  {
  }

  // ----- Lemmas -----

  /** The checks run in a fixed order: digits only, then 13 to 19 digits,
      then a recognised issuer, then the issuer's length, then Luhn. The
      error reported is that of the first check to fail. */
  lemma CheckOrder(input: string)
    ensures var r := ValidateCreditCard(input); var d := StripSeparators(input);
      && (r == Invalid(NonDigit) <==> d == "" || !AllDigits(d))
      && (r == Invalid(BadLength(|d|)) <==> d != "" && AllDigits(d) && (|d| < 13 || |d| > 19))
      && (r == Invalid(UnrecognisedIssuer) <==> AllDigits(d) && 13 <= |d| <= 19 && IssuerOf(d) == Unknown)
      && (r == Invalid(AmexLength(|d|)) <==>
            AllDigits(d) && 13 <= |d| <= 19 && IssuerOf(d) == AmericanExpress && |d| != 15)
      && (r == Invalid(IssuerLength(IssuerOf(d), |d|)) <==>
            AllDigits(d) && 13 <= |d| <= 19 && IssuerOf(d) != Unknown && IssuerOf(d) != AmericanExpress && |d| != 16)
      && (r == Invalid(LuhnFailed) <==>
            AllDigits(d) && IssuerOf(d) != Unknown && |d| == RequiredLength(IssuerOf(d))
            && Luhn.OffsetSum(d, false) % 10 != 0)
  {
    DigitsCheckOrder(StripSeparators(input));
  }

  lemma DigitsCheckOrder(d: string)
    ensures var r := ValidateDigits(d);
      && (r == Invalid(NonDigit) <==> d == "" || !AllDigits(d))
      && (r == Invalid(BadLength(|d|)) <==> d != "" && AllDigits(d) && (|d| < 13 || |d| > 19))
      && (r == Invalid(UnrecognisedIssuer) <==> AllDigits(d) && 13 <= |d| <= 19 && IssuerOf(d) == Unknown)
      && (r == Invalid(AmexLength(|d|)) <==>
            AllDigits(d) && 13 <= |d| <= 19 && IssuerOf(d) == AmericanExpress && |d| != 15)
      && (r == Invalid(IssuerLength(IssuerOf(d), |d|)) <==>
            AllDigits(d) && 13 <= |d| <= 19 && IssuerOf(d) != Unknown && IssuerOf(d) != AmericanExpress && |d| != 16)
      && (r == Invalid(LuhnFailed) <==>
            AllDigits(d) && IssuerOf(d) != Unknown && |d| == RequiredLength(IssuerOf(d))
            && Luhn.OffsetSum(d, false) % 10 != 0)
  {
  }

  /** The 4-4-4-4 slices without their spaces are the first 16 digits. */
  lemma QuadSlicesJoin(d: string)
    requires AllDigits(d)
    ensures Strip(Slice(d, 0, 4) + " " + Slice(d, 4, 8) + " " + Slice(d, 8, 12) + " " + Slice(d, 12, 16), {' '})
      == Slice(d, 0, 16)
  {
    var a, b, c, e := Slice(d, 0, 4), Slice(d, 4, 8), Slice(d, 8, 12), Slice(d, 12, 16);
    assert a + b + c + e == Slice(d, 0, 16);
    assert NoneIn(a, {' '}) && NoneIn(b, {' '}) && NoneIn(c, {' '}) && NoneIn(e, {' '});
    StripAround(a + " " + b + " " + c, ' ', e, {' '});
    StripAround(a + " " + b, ' ', c, {' '});
    StripAround(a, ' ', b, {' '});
    StripNoop(a, {' '});
    StripNoop(b, {' '});
    StripNoop(c, {' '});
    StripNoop(e, {' '});
  }

  lemma MastercardStartsWith2Or5(d: string)
    ensures MatchesAny(IssuerPatterns[1].alts, d) ==> |d| >= 2 && (d[0] == '2' || d[0] == '5')
  {
    var alts := IssuerPatterns[1].alts;
    if MatchesAny(alts, d) {
      var k :| 0 <= k < |alts| && Matches(alts[k], d);
      assert Accepts(alts[k][0], d[0]);
    }
  }

  /** The length check for the issuer comes before the Luhn check: a 13-digit
      number starting with 4 fails with the Visa length error, whatever its
      Luhn sum. */
  lemma ShortVisaFailsOnLength(d: string)
    requires |d| == 13 && AllDigits(d) && d[0] == '4'
    ensures ValidateCreditCard(d) == Invalid(IssuerLength(Visa, 13))
  {
    StripNoop(d, WhitespaceOrHyphen);
  }

  /** Empty input and input made only of white space or hyphens leave no
      digits and fail the digits-only check. */
  lemma NothingLeftFails(input: string)
    requires forall i :: 0 <= i < |input| ==> input[i] in WhitespaceOrHyphen
    ensures ValidateCreditCard(input) == Invalid(NonDigit)
  {
    StripEverything(input);
  }

  lemma {:induction false} StripEverything(s: string)
    requires forall i :: 0 <= i < |s| ==> s[i] in WhitespaceOrHyphen
    ensures Strip(s, WhitespaceOrHyphen) == ""
    decreases |s|
  {
    if |s| > 0 {
      StripEverything(s[1..]);
    }
  }

  /** A number made only of zeros never validates: no issuer starts with 0. */
  lemma AllZerosFail(input: string)
    requires forall i :: 0 <= i < |input| ==> input[i] == '0'
    ensures ValidateCreditCard(input).Invalid?
  {
    var d := StripSeparators(input);
    assert NoneIn(input, WhitespaceOrHyphen);
    StripNoop(input, WhitespaceOrHyphen);
    if |d| > 0 {
        MastercardStartsWith2Or5(d);
    }
  }

  /** The Mastercard pattern asks for a non-zero fourth digit after `22`, so
      a number starting `2230` (and likewise `2240` … `2290`) matches no
      issuer and is rejected as unrecognised. */
  lemma Prefix2230Unrecognised(d: string)
    requires |d| >= 4 && d[..4] == "2230"
    ensures IssuerOf(d) == Unknown
  {
    assert d[0] == '2' && d[1] == '2' && d[2] == '3' && d[3] == '0';
    NoMastercardAlternative(d);
  }

  lemma NoMastercardAlternative(d: string)
    requires |d| >= 4 && d[0] == '2' && d[1] == '2' && d[2] == '3' && d[3] == '0'
    ensures !MatchesAny(IssuerPatterns[1].alts, d)
  {
    var alts := IssuerPatterns[1].alts;
    assert !Matches(alts[0], d) && !Matches(alts[1], d) && !Matches(alts[2], d);
    assert !Matches(alts[3], d) && !Matches(alts[4], d);
  }
}

=== FILE: currency.dfy ===
/** Currency codes and the string half of money parsing (src/currency.ts):
    `validateCurrencyCode` in full, and `parseMoney` from the trimmed input
    up to the `normalised` amount string handed to `parseFloat`. */
module Currency {
  import opened Text

  datatype Option<T> = None | Some(value: T)

  /** The ISO 4217 codes the library supports. */
  datatype Code = GBP | EUR | USD | JPY | CHF | CAD | AUD | NZD

  function CodeText(c: Code): string
  {
    match c
    case GBP => "GBP"
    case EUR => "EUR"
    case USD => "USD"
    case JPY => "JPY"
    case CHF => "CHF"
    case CAD => "CAD"
    case AUD => "AUD"
    case NZD => "NZD"
  }

  /** `SUPPORTED_CURRENCIES`, in its declared order. */
  const SupportedCurrencies: seq<Code> := [GBP, EUR, USD, JPY, CHF, CAD, AUD, NZD]

  /** The supported codes as strings: `SUPPORTED_CURRENCIES`, holding
      exactly the spellings of the codes. */
  function SupportedCodes(): (codes: seq<string>)
    ensures codes == ["GBP", "EUR", "USD", "JPY", "CHF", "CAD", "AUD", "NZD"]
    ensures forall s :: s in codes <==> CodeOf(s).Some?
  {
    seq(|SupportedCurrencies|, i requires 0 <= i < |SupportedCurrencies| => CodeText(SupportedCurrencies[i]))
  }

  /** The code a string names, if it names one. */
  function CodeOf(s: string): (r: Option<Code>)
    ensures r.Some? ==> CodeText(r.value) == s
    ensures r.None? ==> forall c: Code :: CodeText(c) != s
  {
    if s == "GBP" then Some(GBP)
    else if s == "EUR" then Some(EUR)
    else if s == "USD" then Some(USD)
    else if s == "JPY" then Some(JPY)
    else if s == "CHF" then Some(CHF)
    else if s == "CAD" then Some(CAD)
    else if s == "AUD" then Some(AUD)
    else if s == "NZD" then Some(NZD)
    else None
  }

  /** `xs.join(sep)`. */
  function Join(xs: seq<string>, sep: string): string
  {
    if |xs| == 0 then "" else if |xs| == 1 then xs[0] else xs[0] + sep + Join(xs[1..], sep)
  }

  datatype CodeError = Unsupported(input: string)

  datatype CodeResult = Valid(value: string, formatted: string) | Invalid(error: CodeError)

  function CodeMessage(e: CodeError): string
  {
    "Unsupported currency code: " + e.input + ". Supported: " + Join(SupportedCodes(), ", ")
  }

  /** `validateCurrencyCode`. There is no empty-input check: the empty
      string is simply not a supported code. */
  function ValidateCurrencyCode(input: string): (r: CodeResult)
    ensures r.Valid? <==> exists c: Code :: CodeText(c) == ToUpper(input)
    ensures r.Valid? ==> r.value == ToUpper(input) && r.formatted == r.value
    ensures r.Invalid? ==> r.error == Unsupported(input)
  {
    var upper := ToUpper(input);
    SupportedCodesComplete(upper);
    if upper !in SupportedCodes() then Invalid(Unsupported(input))
    else Valid(upper, upper)
  }

  // ----- Symbol detection -----

  /** The keys of `symbolMap`, in insertion order, which is the order
      `Object.entries` visits them. */
  const SymbolTable: seq<(string, Code)> := [
    ("\U{00A3}", GBP),   // pound sign
    ("\U{20AC}", EUR),   // euro sign
    ("$", USD),
    ("\U{00A5}", JPY),   // yen sign
    ("CHF", CHF),
    ("CA$", CAD),
    ("A$", AUD),
    ("NZ$", NZD)
  ]

  /** `cleaned.startsWith(symbol) || cleaned.endsWith(symbol)`. */
  predicate Marks(s: string, symbol: string)
  {
    HasPrefix(s, symbol) || HasSuffix(s, symbol)
  }

  /** The index of the first table entry whose symbol marks `s`, as the
      detection loop finds it before its `break`. */
  function DetectSymbol(s: string, table: seq<(string, Code)>): (r: Option<nat>)
    ensures r.None? <==> forall k :: 0 <= k < |table| ==> !Marks(s, table[k].0)
    ensures r.Some? ==> r.value < |table| && Marks(s, table[r.value].0)
    ensures r.Some? ==> forall k :: 0 <= k < r.value ==> !Marks(s, table[k].0)
  {
    if |table| == 0 then None
    else if Marks(s, table[0].0) then Some(0)
    else
      var rest := DetectSymbol(s, table[1..]);
      assert forall k :: 1 <= k < |table| ==> table[k] == table[1..][k - 1];
      match rest
      case None => None
      case Some(k) => Some(k + 1)
  }

  /** `symbol` occurs in `s` starting at position `k`. */
  predicate OccursAt(s: string, symbol: string, k: nat)
  {
    k + |symbol| <= |s| && s[k..k + |symbol|] == symbol
  }

  /** `s.indexOf(symbol, from)`, with no result for -1. */
  function IndexFrom(s: string, symbol: string, from: nat): (r: Option<nat>)
    requires from <= |s|
    ensures r.None? ==> forall j :: from <= j <= |s| ==> !OccursAt(s, symbol, j)
    ensures r.Some? ==> from <= r.value && OccursAt(s, symbol, r.value)
    ensures r.Some? ==> forall j :: from <= j < r.value ==> !OccursAt(s, symbol, j)
    decreases |s| - from
  {
    if OccursAt(s, symbol, from) then Some(from)
    else if from == |s| then None
    else IndexFrom(s, symbol, from + 1)
  }

  /** `s.replace(symbol, '')` with a string pattern: only the first
      occurrence is removed: putting the symbol back where it first
      occurred gives the string back, and a string without the symbol is
      left alone. */
  function RemoveFirst(s: string, symbol: string): (r: string)
    ensures IndexFrom(s, symbol, 0).None? ==> r == s
    ensures IndexFrom(s, symbol, 0).Some? ==>
      var k := IndexFrom(s, symbol, 0).value; k <= |r| && |r| + |symbol| == |s| && r[..k] + symbol + r[k..] == s
  {
    match IndexFrom(s, symbol, 0)
    case None => s
    case Some(k) =>
      var r := s[..k] + s[k + |symbol|..];
      assert r[..k] == s[..k] && r[k..] == s[k + |symbol|..];
      assert s[..k] + s[k..k + |symbol|] + s[k + |symbol|..] == s;
      r
  }

  // ----- Separator normalisation -----

  const Separators: set<char> := {',', '.'}

  /** The class `[,.\s]` the rewrite visits. */
  const Rewritten: set<char> := Separators + Whitespace

  /** `Math.max(str.lastIndexOf(','), str.lastIndexOf('.'))`. */
  function LastSeparator(s: string): (r: int)
    ensures -1 <= r < |s|
    ensures r >= 0 ==> s[r] in Separators
    ensures forall j :: r < j < |s| ==> s[j] !in Separators
  {
    if |s| == 0 then -1
    else if s[|s| - 1] in Separators then |s| - 1
    else
      var p := s[..|s| - 1];
      var r := LastSeparator(p);
      assert forall j :: 0 <= j < |p| ==> p[j] == s[j];
      r
  }

  /** The replacement callback applied to `s`, whose first character sits at
      position `offset` of the whole string: a character of `[,.\s]` becomes
      `.` at position `last` and disappears elsewhere. */
  function RewriteFrom(s: string, offset: nat, last: int): string
  {
    if |s| == 0 then ""
    else
      (if s[0] !in Rewritten then [s[0]] else if offset == last then "." else "")
      + RewriteFrom(s[1..], offset + 1, last)
  }

  /** The `normalised` string of `parseMoney`: every `,`, `.` and white-space
      character goes, except the last `,` or `.`, which becomes the decimal
      point. */
  function NormaliseSeparators(s: string): (r: string)
    ensures LastSeparator(s) == -1 ==> r == Strip(s, Rewritten)
    ensures LastSeparator(s) >= 0 ==>
      r == Strip(s[..LastSeparator(s)], Rewritten) + "." + Strip(s[LastSeparator(s) + 1..], Rewritten)
  {
    var last := LastSeparator(s);
    if last == -1 then
      RewriteAway(s, 0, last);
      RewriteFrom(s, 0, last)
    else
      RewriteAtLast(s, last);
      RewriteFrom(s, 0, last)
  }

  // ----- parseMoney, up to the normalised string -----

  /** The position of a currency's entry in the symbol table. */
  function Rank(c: Code): (k: nat)
    ensures k < |SymbolTable| && SymbolTable[k].1 == c
  {
    match c
    case GBP => 0 case EUR => 1 case USD => 2 case JPY => 3
    case CHF => 4 case CAD => 5 case AUD => 6 case NZD => 7
  }

  /** The symbol `parseMoney` reads a currency from. */
  function SymbolOf(c: Code): string
  {
    SymbolTable[Rank(c)].0
  }

  datatype MoneyError = NoCurrency

  datatype MoneyScan = Scanned(currency: Code, normalised: string) | Failed(error: MoneyError)

  function MoneyMessage(e: MoneyError): string
  {
    "Could not detect currency from input"
  }

  /** No two positions of `s` both hold a `.`. */
  predicate OnePointAtMost(s: string)
  {
    forall i, j :: 0 <= i < |s| && 0 <= j < |s| && s[i] == '.' && s[j] == '.' ==> i == j
  }

  /** The amount text once the symbol is known: its first occurrence removed,
      the rest trimmed and its separators normalised. Relative to the text
      with the symbol removed, the amount has lost exactly its `[,.\s]`
      characters apart from one `.`, present exactly when a `,` or `.` was. */
  function Amount(cleaned: string, symbol: string): (r: string)
    ensures NoneIn(r, {','} + Whitespace)
    ensures Strip(r, {'.'}) == Strip(RemoveFirst(cleaned, symbol), Rewritten)
    ensures NoneIn(r, {'.'}) <==> NoneIn(RemoveFirst(cleaned, symbol), Separators)
    ensures OnePointAtMost(r)
  {
    var rest := RemoveFirst(cleaned, symbol);
    var trimmed := Trim(rest);
    NormalisedShape(trimmed);
    AtMostOnePoint(trimmed);
    TrimStrip(rest, Rewritten);
    TrimKeeps(rest, Separators);
    NormaliseSeparators(trimmed)
  }

  /** `parseMoney` as far as `normalised`: detect the currency from the
      trimmed input, then read the amount text. */
  function ScanMoney(input: string): (r: MoneyScan)
    ensures r.Failed? <==> forall k :: 0 <= k < |SymbolTable| ==> !Marks(Trim(input), SymbolTable[k].0)
    ensures r.Scanned? ==> Marks(Trim(input), SymbolOf(r.currency))
    ensures r.Scanned? ==> forall j :: 0 <= j < Rank(r.currency) ==> !Marks(Trim(input), SymbolTable[j].0)
    ensures r.Scanned? ==> r.normalised == Amount(Trim(input), SymbolOf(r.currency))
  {
    var cleaned := Trim(input);
    match DetectSymbol(cleaned, SymbolTable)
    case None => Failed(NoCurrency)
    case Some(k) =>
      var c := SymbolTable[k].1;
      assert Rank(c) == k;
      Scanned(c, Amount(cleaned, SymbolTable[k].0))
  }

  // ----- Lemmas -----

  lemma SupportedCodesComplete(s: string)
    ensures s in SupportedCodes() <==> exists c: Code :: CodeText(c) == s
  {
    var codes := SupportedCodes();
    if exists c: Code :: CodeText(c) == s {
      var c: Code :| CodeText(c) == s;
      var i := match c
        case GBP => 0 case EUR => 1 case USD => 2 case JPY => 3
        case CHF => 4 case CAD => 5 case AUD => 6 case NZD => 7;
      assert codes[i] == s;
    }
  }

  /** Every code is spelled by exactly one string, which reads back as it. */
  lemma CodeRoundTrip(c: Code, s: string)
    ensures CodeOf(CodeText(c)) == Some(c)
    ensures CodeText(c) == s <==> CodeOf(s) == Some(c)
  {
  }

  /** Case does not matter: any spelling of a supported code validates to
      its upper-case form. */
  lemma AnyCaseAccepted(c: Code, input: string)
    requires ToUpper(input) == CodeText(c)
    ensures ValidateCurrencyCode(input) == Valid(CodeText(c), CodeText(c))
  {
  }

  lemma LowerCaseGbp()
    ensures ValidateCurrencyCode("gbp") == Valid("GBP", "GBP")
  {
    assert ToUpper("gbp") == "GBP";
    AnyCaseAccepted(GBP, "gbp");
  }

  lemma CaseInsensitive(input: string)
    ensures ValidateCurrencyCode(ToLower(input)).Valid? == ValidateCurrencyCode(input).Valid?
  {
    UpperOfLower(input);
  }

  lemma {:induction false} RewriteConcat(a: string, b: string, offset: nat, last: int)
    ensures RewriteFrom(a + b, offset, last) == RewriteFrom(a, offset, last) + RewriteFrom(b, offset + |a|, last)
    decreases |a|
  {
    if |a| == 0 {
      assert a + b == b;
    } else {
      assert (a + b)[1..] == a[1..] + b;
      RewriteConcat(a[1..], b, offset + 1, last);
    }
  }

  /** Away from the last separator, the rewrite just drops `[,.\s]`. */
  lemma {:induction false} RewriteAway(s: string, offset: nat, last: int)
    requires last < offset || offset + |s| <= last
    ensures RewriteFrom(s, offset, last) == Strip(s, Rewritten)
    decreases |s|
  {
    if |s| > 0 {
      RewriteAway(s[1..], offset + 1, last);
    }
  }

  lemma RewriteAtLast(s: string, last: nat)
    requires last < |s| && s[last] in Separators
    ensures RewriteFrom(s, 0, last) == Strip(s[..last], Rewritten) + "." + Strip(s[last + 1..], Rewritten)
  {
    var a, b := s[..last], s[last + 1..];
    assert s == a + ([s[last]] + b);
    RewriteConcat(a, [s[last]] + b, 0, last);
    RewriteConcat([s[last]], b, last, last);
    RewriteAway(a, 0, last);
    RewriteAway(b, last + 1, last);
    assert RewriteFrom([s[last]], last, last) == ".";
  }

  /** What the normalised string keeps: no `,` and no white space, the
      other characters in order, and one `.` exactly when the amount had a
      separator. */
  lemma NormalisedShape(s: string)
    ensures NoneIn(NormaliseSeparators(s), {','} + Whitespace)
    ensures Strip(NormaliseSeparators(s), {'.'}) == Strip(s, Rewritten)
    ensures NoneIn(NormaliseSeparators(s), {'.'}) <==> NoneIn(s, Separators)
  {
    var r := NormaliseSeparators(s);
    var last := LastSeparator(s);
    if last == -1 {
      NoSeparatorShape(s);
      assert NoneIn(r, Rewritten);
    } else {
      SeparatorShape(s, last);
      var a := Strip(s[..last], Rewritten);
      assert r[|a|] == '.';
    }
  }

  lemma NoSeparatorShape(s: string)
    requires LastSeparator(s) == -1
    ensures NormaliseSeparators(s) == Strip(s, Rewritten)
    ensures Strip(Strip(s, Rewritten), {'.'}) == Strip(s, Rewritten)
    ensures NoneIn(s, Separators)
  {
    StripNoop(Strip(s, Rewritten), {'.'});
  }

  lemma SeparatorShape(s: string, last: nat)
    requires LastSeparator(s) == last
    ensures var a, b := Strip(s[..last], Rewritten), Strip(s[last + 1..], Rewritten);
      && NormaliseSeparators(s) == a + "." + b
      && Strip(a + "." + b, {'.'}) == a + b
      && Strip(s, Rewritten) == a + b
      && !NoneIn(s, Separators)
      && NoneIn(a + "." + b, {','} + Whitespace)
  {
    var a, b := Strip(s[..last], Rewritten), Strip(s[last + 1..], Rewritten);
    PointDrops(a, b);
    PointOnlyBetween(a, b);
    assert s == s[..last] + [s[last]] + s[last + 1..];
    StripAround(s[..last], s[last], s[last + 1..], Rewritten);
  }

  lemma PointDrops(a: string, b: string)
    requires NoneIn(a, Rewritten) && NoneIn(b, Rewritten)
    ensures Strip(a + "." + b, {'.'}) == a + b
  {
    StripAround(a, '.', b, {'.'});
    StripNoop(a, {'.'});
    StripNoop(b, {'.'});
  }

  /** At most one decimal point survives normalisation. */
  lemma AtMostOnePoint(s: string)
    ensures OnePointAtMost(NormaliseSeparators(s))
  {
    var last := LastSeparator(s);
    if last >= 0 {
      PointOnlyBetween(Strip(s[..last], Rewritten), Strip(s[last + 1..], Rewritten));
    }
  }

  lemma PointOnlyBetween(a: string, b: string)
    requires NoneIn(a, Rewritten) && NoneIn(b, Rewritten)
    ensures forall i :: 0 <= i < |a + "." + b| && (a + "." + b)[i] == '.' ==> i == |a|
    ensures NoneIn(a + "." + b, {','} + Whitespace)
  {
    var r := a + "." + b;
    assert forall i :: 0 <= i < |a| ==> r[i] == a[i];
    assert forall i :: |a| < i < |r| ==> r[i] == b[i - |a| - 1];
  }

  /** A string pattern that is a prefix is removed there. */
  lemma RemoveFirstPrefix(s: string, symbol: string)
    requires HasPrefix(s, symbol)
    ensures RemoveFirst(s, symbol) == s[|symbol|..]
  {
    assert OccursAt(s, symbol, 0);
  }

  /** Removing the first occurrence undoes inserting a symbol in front of
      which it does not already occur. */
  lemma RemoveFirstInverse(a: string, symbol: string, b: string)
    requires forall j :: 0 <= j < |a| ==> !OccursAt(a + symbol + b, symbol, j)
    ensures RemoveFirst(a + symbol + b, symbol) == a + b
  {
    var s := a + symbol + b;
    assert s[|a|..|a| + |symbol|] == symbol;
    assert OccursAt(s, symbol, |a|);
    assert s[..|a|] == a && s[|a| + |symbol|..] == b;
  }

  /** The symbol removed is the first occurrence, which need not be the one
      that marked the input: in `$5$` the leading `$` goes and the trailing
      one stays in the amount. */
  lemma FirstOccurrenceRemoved()
    ensures RemoveFirst("$5$", "$") == "5$"
  {
    RemoveFirstPrefix("$5$", "$");
  }

  /** `$` comes before `CA$`, `A$` and `NZ$` in the table, so an amount
      written with one of those as a suffix is read as US dollars. */
  lemma DollarSuffixMeansUsd(input: string)
    requires HasSuffix(Trim(input), "$")
    requires !HasPrefix(Trim(input), "\U{00A3}") && !HasPrefix(Trim(input), "\U{20AC}")
    ensures ScanMoney(input).Scanned? && ScanMoney(input).currency == USD
  {
    var t := Trim(input);
    assert Marks(t, SymbolTable[2].0);
    assert !HasSuffix(t, "\U{00A3}") && !HasSuffix(t, "\U{20AC}");
    assert !Marks(t, SymbolTable[0].0) && !Marks(t, SymbolTable[1].0);
  }

  /** Canadian, Australian and New Zealand dollars are recognised only as
      prefixes, since as suffixes their symbols end with `$`, which is
      tested first. */
  lemma DollarVariantsOnlyAsPrefix(input: string)
    requires ScanMoney(input).Scanned?
    ensures var c := ScanMoney(input).currency;
      c == CAD || c == AUD || c == NZD ==> HasPrefix(Trim(input), SymbolOf(c))
  {
    var r := ScanMoney(input);
    DetectedDollarVariant(Trim(input), r.currency);
  }

  lemma DetectedDollarVariant(t: string, c: Code)
    requires Marks(t, SymbolOf(c))
    requires forall j :: 0 <= j < Rank(c) ==> !Marks(t, SymbolTable[j].0)
    ensures c == CAD || c == AUD || c == NZD ==> HasPrefix(t, SymbolOf(c))
  {
    if c == CAD || c == AUD || c == NZD {
      assert 2 < Rank(c);
      assert SymbolTable[2].0 == "$";
      assert !Marks(t, "$");
      DollarVariantMarksAsPrefix(t, c);
    }
  }

  lemma DollarVariantMarksAsPrefix(t: string, c: Code)
    requires c == CAD || c == AUD || c == NZD
    requires Marks(t, SymbolOf(c)) && !Marks(t, "$")
    ensures HasPrefix(t, SymbolOf(c))
  {
    var sym := SymbolOf(c);
    assert |sym| > 0 && sym[|sym| - 1] == '$';
    if HasSuffix(t, sym) {
      SuffixOfSuffix(t, sym);
    }
  }

  lemma SuffixOfSuffix(t: string, sym: string)
    requires HasSuffix(t, sym) && |sym| > 0
    ensures HasSuffix(t, [sym[|sym| - 1]])
  {
    assert t[|t| - 1] == sym[|sym| - 1];
  }

  /** Nothing to read a currency from: the empty string, or white space. */
  lemma BlankInputFails(input: string)
    requires forall i :: 0 <= i < |input| ==> input[i] in Whitespace
    ensures ScanMoney(input) == Failed(NoCurrency)
  {
    TrimIsBlank(input);
    NothingMarksEmpty();
  }

  lemma NothingMarksEmpty()
    ensures forall k :: 0 <= k < |SymbolTable| ==> !Marks("", SymbolTable[k].0)
  {
  }

  lemma TrimIsBlank(s: string)
    requires forall i :: 0 <= i < |s| ==> s[i] in Whitespace
    ensures Trim(s) == ""
  {
    var t := Trim(s);
    TrimStrip(s, Whitespace);
    StripAllWhitespace(s);
    if |t| > 0 {
      assert t[0] !in Whitespace;
      StripKeepsFirst(t);
    }
  }

  lemma StripKeepsFirst(t: string)
    requires |t| > 0 && t[0] !in Whitespace
    ensures Strip(t, Whitespace) != ""
  {
  }
}

=== FILE: groups.dfy ===
/** Grouping a string into space-separated runs of four characters.

    Both `formatIBANString` (src/iban.ts) and the non-Amex branch of
    `formatCardNumber` (src/card.ts) are `s.replace(/(.{4})/g, '$1 ').trim()`.
    The regular expression's `.` does not match line terminators; every caller
    has already removed white space, so `FormatQuads` requires that and then
    `.` is simply any character. */
module Groups {
  import opened Text

  /** `s.replace(/(.{4})/g, '$1 ')`: a space after every complete run of four. */
  function SpaceAfterQuads(s: string): (r: string)
    ensures |r| == |s| + |s| / 4
    ensures NoneIn(s, {' '}) ==> Strip(r, {' '}) == s
    decreases |s|
  {
    if |s| < 4 then
      SpacelessKept(s);
      s
    else
      var rest := SpaceAfterQuads(s[4..]);
      StripAround(s[..4], ' ', rest, {' '});
      SpacelessKept(s[..4]);
      assert s[..4] + s[4..] == s;
      s[..4] + " " + rest
  }

  lemma SpacelessKept(s: string)
    ensures NoneIn(s, {' '}) ==> Strip(s, {' '}) == s
  {
    if NoneIn(s, {' '}) {
      StripNoop(s, {' '});
    }
  }

  /** The runs of four the formatted string shows, the last one possibly shorter. */
  function Chunks(s: string): (gs: seq<string>)
    ensures forall i :: 0 <= i < |gs| ==> 1 <= |gs[i]| <= 4
    ensures forall i :: 0 <= i < |gs| - 1 ==> |gs[i]| == 4
    ensures |gs| == (|s| + 3) / 4
    decreases |s|
  {
    if |s| == 0 then []
    else if |s| <= 4 then [s]
    else [s[..4]] + Chunks(s[4..])
  }

  function Concat(gs: seq<string>): string
  {
    if |gs| == 0 then "" else gs[0] + Concat(gs[1..])
  }

  /** The groups joined by single spaces. */
  function JoinSpaced(gs: seq<string>): string
  {
    if |gs| == 0 then ""
    else if |gs| == 1 then gs[0]
    else gs[0] + " " + JoinSpaced(gs[1..])
  }

  /** `formatIBANString`: the string in space-separated groups of four. */
  function FormatQuads(s: string): (r: string)
    requires NoneIn(s, Whitespace)
    ensures r == JoinSpaced(Chunks(s))
    ensures Strip(r, {' '}) == s
    ensures |s| > 0 ==> |r| == |s| + (|s| - 1) / 4
    ensures |s| == 0 ==> r == ""
  {
    FormatQuadsIsJoinedChunks(s);
    ConcatChunks(s);
    ChunksNoWhitespace(s);
    assert forall i :: 0 <= i < |Chunks(s)| ==> NoneIn(Chunks(s)[i], {' '});
    StripJoinSpaced(Chunks(s));
    JoinSpacedLength(Chunks(s));
    Trim(SpaceAfterQuads(s))
  }

  // ----- Lemmas -----

  lemma {:induction false} ConcatChunks(s: string)
    ensures Concat(Chunks(s)) == s
    decreases |s|
  {
    if |s| > 4 {
      ConcatChunks(s[4..]);
      assert s[..4] + s[4..] == s;
    } else if |s| > 0 {
      assert Concat([s]) == s + Concat([]);
    }
  }

  lemma {:induction false} ChunksNoWhitespace(s: string)
    requires NoneIn(s, Whitespace)
    ensures forall i :: 0 <= i < |Chunks(s)| ==> NoneIn(Chunks(s)[i], Whitespace)
    decreases |s|
  {
    if |s| > 4 {
      ChunksNoWhitespace(s[4..]);
      var gs := Chunks(s);
      assert gs == [s[..4]] + Chunks(s[4..]);
      forall i | 0 <= i < |gs|
        ensures NoneIn(gs[i], Whitespace)
      {
        if i > 0 {
          assert gs[i] == Chunks(s[4..])[i - 1];
        }
      }
    }
  }

  /** Before trimming, the only extra character is one trailing space when the
      length is a non-zero multiple of four. */
  lemma {:induction false} SpaceAfterQuadsShape(s: string)
    ensures SpaceAfterQuads(s) == JoinSpaced(Chunks(s)) + (if |s| > 0 && |s| % 4 == 0 then " " else "")
    decreases |s|
  {
    if |s| > 4 {
      SpaceAfterQuadsShape(s[4..]);
      var rest := Chunks(s[4..]);
      assert Chunks(s) == [s[..4]] + rest;
      assert ([s[..4]] + rest)[1..] == rest;
    } else if |s| == 4 {
      assert s[4..] == "";
      assert s[..4] == s;
    }
  }

  lemma {:induction false} JoinSpacedEnds(gs: seq<string>)
    requires forall i :: 0 <= i < |gs| ==> |gs[i]| > 0 && NoneIn(gs[i], Whitespace)
    ensures |gs| > 0 ==> |JoinSpaced(gs)| > 0
    ensures |JoinSpaced(gs)| > 0 ==> JoinSpaced(gs)[0] !in Whitespace
    ensures |JoinSpaced(gs)| > 0 ==> JoinSpaced(gs)[|JoinSpaced(gs)| - 1] !in Whitespace
    decreases |gs|
  {
    if |gs| > 1 {
      JoinSpacedEnds(gs[1..]);
      var j := JoinSpaced(gs);
      var t := JoinSpaced(gs[1..]);
      assert j == gs[0] + " " + t;
      assert j[0] == gs[0][0];
      assert j[|j| - 1] == t[|t| - 1];
    }
  }

  lemma {:induction false} FormatQuadsIsJoinedChunks(s: string)
    requires NoneIn(s, Whitespace)
    ensures Trim(SpaceAfterQuads(s)) == JoinSpaced(Chunks(s))
  {
    SpaceAfterQuadsShape(s);
    ChunksNoWhitespace(s);
    var j := JoinSpaced(Chunks(s));
    JoinSpacedEnds(Chunks(s));
    if |s| > 0 && |s| % 4 == 0 {
      assert (j + " ")[..|j + " "| - 1] == j;
      assert TrimEnd(j + " ") == TrimEnd(j);
    }
    assert TrimEnd(j) == j;
    assert TrimStart(j) == j;
  }

  lemma {:induction false} StripJoinSpaced(gs: seq<string>)
    requires forall i :: 0 <= i < |gs| ==> NoneIn(gs[i], {' '})
    ensures Strip(JoinSpaced(gs), {' '}) == Concat(gs)
    decreases |gs|
  {
    if |gs| == 1 {
      StripNoop(gs[0], {' '});
      assert Concat(gs) == gs[0] + Concat([]);
    } else if |gs| > 1 {
      StripJoinSpaced(gs[1..]);
      StripConcat(gs[0] + " ", JoinSpaced(gs[1..]), {' '});
      StripConcat(gs[0], " ", {' '});
      StripNoop(gs[0], {' '});
      StripSingle(' ', {' '});
    }
  }

  lemma {:induction false} JoinSpacedLength(gs: seq<string>)
    ensures |gs| > 0 ==> |JoinSpaced(gs)| == |Concat(gs)| + |gs| - 1
    decreases |gs|
  {
    if |gs| > 1 {
      JoinSpacedLength(gs[1..]);
    } else if |gs| == 1 {
      assert Concat(gs) == gs[0] + Concat([]);
    }
  }

  /** Every group in the formatted string is four characters long except the
      last, which holds one to four; removing the separating spaces gives back
      the input. */
  lemma FormatQuadsGroups(s: string)
    requires NoneIn(s, Whitespace)
    ensures var gs := Chunks(s);
      && FormatQuads(s) == JoinSpaced(gs)
      && Concat(gs) == s
      && (forall i :: 0 <= i < |gs| - 1 ==> |gs[i]| == 4)
      && (|gs| > 0 ==> 1 <= |gs[|gs| - 1]| <= 4)
  {
    ConcatChunks(s);
  }

  /** The 4-6-5 slices that both card formatters use for American Express
      numbers: without the spaces they are the first 15 digits. */
  lemma AmexSlicesJoin(d: string)
    requires AllDigits(d)
    ensures Strip(Slice(d, 0, 4) + " " + Slice(d, 4, 10) + " " + Slice(d, 10, 15), {' '}) == Slice(d, 0, 15)
  {
    var a, b, c := Slice(d, 0, 4), Slice(d, 4, 10), Slice(d, 10, 15);
    assert a + b + c == Slice(d, 0, 15);
    StripAround(a + " " + b, ' ', c, {' '});
    StripAround(a, ' ', b, {' '});
    assert NoneIn(a, {' '}) && NoneIn(b, {' '}) && NoneIn(c, {' '});
    StripNoop(a, {' '});
    StripNoop(b, {' '});
    StripNoop(c, {' '});
  }
}

=== FILE: iban.dfy ===
/** IBAN validation (src/iban.ts): the country-length table, the ISO 7064
    MOD 97-10 checksum that ISO 13616 prescribes, and the display grouping. */
module Iban {
  import opened Text
  import Groups

  /** `IBAN_LENGTHS`: the total IBAN length for each supported country. */
  const IbanLengths: map<string, nat> := map[
    "AL" := 28, "AD" := 24, "AT" := 20, "AZ" := 28, "BH" := 22, "BE" := 16, "BA" := 20, "BR" := 29,
    "BG" := 22, "CR" := 22, "HR" := 21, "CY" := 28, "CZ" := 24, "DK" := 18, "DO" := 28, "EE" := 20,
    "FI" := 18, "FR" := 27, "GE" := 22, "DE" := 22, "GI" := 23, "GR" := 27, "GT" := 28, "HU" := 28,
    "IS" := 26, "IE" := 22, "IL" := 23, "IT" := 27, "JO" := 30, "KZ" := 20, "KW" := 30, "LV" := 21,
    "LB" := 28, "LI" := 21, "LT" := 20, "LU" := 20, "MK" := 19, "MT" := 31, "MR" := 27, "MU" := 30,
    "MC" := 27, "MD" := 24, "ME" := 22, "NL" := 18, "NO" := 15, "PK" := 24, "PS" := 29, "PL" := 28,
    "PT" := 25, "QA" := 29, "RO" := 24, "SM" := 27, "SA" := 24, "RS" := 22, "SK" := 24, "SI" := 19,
    "ES" := 24, "SE" := 24, "CH" := 21, "TN" := 24, "TR" := 26, "AE" := 23, "GB" := 22, "VG" := 24
  ]

  // ----- Numbers written in decimal -----

  function Pow10(n: nat): nat
  {
    if n == 0 then 1 else 10 * Pow10(n - 1)
  }

  /** The number a string of decimal digits denotes, by positional notation. */
  function NumericValue(s: string): nat
    requires AllDigits(s)
  {
    if |s| == 0 then 0 else DigitValue(s[0]) * Pow10(|s| - 1) + NumericValue(s[1..])
  }

  /** The loop of `mod97`: the running remainder `(r * 10 + digit) % 97`,
      continued from remainder `r` over the digits of `s`. */
  function Mod97From(r: nat, s: string): (m: nat)
    requires r < 97 && AllDigits(s)
    ensures m < 97
    decreases |s|
  {
    if |s| == 0 then r else Mod97From((r * 10 + DigitValue(s[0])) % 97, s[1..])
  }

  /** `mod97`: the remainder of the digit string's value on division by 97,
      computed without ever holding the (arbitrarily large) value. */
  function Mod97(s: string): (m: nat)
    requires AllDigits(s)
    ensures m < 97
    ensures m == NumericValue(s) % 97
  {
    Mod97FromValue(0, s);
    Mod97From(0, s)
  }

  // ----- Letters as numbers -----

  /** One character of `ibanToDigits`: a letter A..Z becomes the decimal
      rendering of its code minus 55 (10..35); anything else is kept. */
  function CharDigits(c: char): string
  {
    if IsUpper(c) then NatToString(c as int - 55) else [c]
  }

  function ExpandLetters(s: string): string
  {
    if |s| == 0 then "" else CharDigits(s[0]) + ExpandLetters(s[1..])
  }

  function LetterCount(s: string): nat
  {
    if |s| == 0 then 0 else (if IsUpper(s[0]) then 1 else 0) + LetterCount(s[1..])
  }

  /** `iban.slice(4) + iban.slice(0, 4)`. */
  function Rotate(s: string): (r: string)
    ensures |s| >= 4 ==> r == s[4..] + s[..4]
    ensures |s| < 4 ==> r == s
  {
    Slice(s, 4, |s|) + Slice(s, 0, 4)
  }

  /** `ibanToDigits`: the first four characters moved to the end and every
      letter replaced by its two-digit code. */
  function IbanToDigits(s: string): (r: string)
    ensures AllUpperAlnum(s) ==> AllDigits(r) && |r| == |s| + LetterCount(s)
    ensures |s| >= 4 ==> r == ExpandLetters(s[4..]) + ExpandLetters(s[..4])
  {
    IbanToDigitsShape(s);
    ExpandLetters(Rotate(s))
  }

  // ----- Formatting -----

  /** `formatIBANString`. */
  function FormatIban(s: string): (r: string)
    requires NoneIn(s, Whitespace)
    ensures Strip(r, {' '}) == s
    ensures r == Groups.JoinSpaced(Groups.Chunks(s))
  {
    Groups.FormatQuads(s)
  }

  // ----- Validation -----

  datatype IbanError =
    | EmptyInput
    | TooShort
    | NoCountryCode
    | UnsupportedCountry(code: string)
    | WrongLength(code: string, expected: nat, got: nat)
    | InvalidCharacters
    | BadChecksum

  datatype IbanResult =
    | Valid(value: string, formatted: string, countryCode: string)
    | Invalid(error: IbanError)

  function Message(e: IbanError): string
  {
    match e
    case EmptyInput => "Input must be a non-empty string"
    case TooShort => "IBAN is too short"
    case NoCountryCode => "IBAN must start with a 2-letter country code"
    case UnsupportedCountry(code) => "Unsupported country code: " + code
    case WrongLength(code, expected, got) =>
      "Invalid length for " + code + " IBAN. Expected " + NatToString(expected)
      + " characters, got " + NatToString(got)
    case InvalidCharacters => "IBAN contains invalid characters"
    case BadChecksum => "IBAN checksum is invalid"
  }

  /** `input.replace(/\s/g, '').toUpperCase()`. */
  function Clean(input: string): string
  {
    ToUpper(Strip(input, Whitespace))
  }

  /** What a valid IBAN is, stated without the order of the checks: a known
      country, that country's length, only `[A-Z0-9]`, and the MOD 97-10
      remainder 1 of the rearranged number. */
  predicate WellFormed(v: string)
  {
    && |v| >= 4
    && IsUpper(v[0]) && IsUpper(v[1])
    && v[..2] in IbanLengths
    && |v| == IbanLengths[v[..2]]
    && AllUpperAlnum(v)
    && NumericValue(IbanToDigits(v)) % 97 == 1
  }

  /** `validateIBAN`. */
  function ValidateIban(input: string): (r: IbanResult)
    ensures r.Valid? <==> input != "" && WellFormed(Clean(input))
    ensures r.Valid? ==> r.value == Clean(input) && r.countryCode == r.value[..2]
    ensures r.Valid? ==> Strip(r.formatted, {' '}) == r.value
    ensures r.Valid? ==> r.formatted == Groups.JoinSpaced(Groups.Chunks(r.value))
    ensures r.Valid? ==> NoneIn(r.value, Whitespace) && forall i :: 0 <= i < |r.value| ==> !IsLower(r.value[i])
  {
    if input == "" then Invalid(EmptyInput)
    else
      CleanShape(input);
      ValidateCleaned(Clean(input))
  }

  /** The checks of `validateIBAN` after the input has been cleaned, in order. */
  function ValidateCleaned(cleaned: string): (r: IbanResult)
    requires NoneIn(cleaned, Whitespace)
    ensures r.Valid? <==> WellFormed(cleaned)
    ensures r.Valid? ==> r.value == cleaned && r.countryCode == cleaned[..2]
    ensures r.Valid? ==> Strip(r.formatted, {' '}) == r.value
    ensures r.Valid? ==> r.formatted == Groups.JoinSpaced(Groups.Chunks(r.value))
  {
    if |cleaned| < 4 then Invalid(TooShort)
    else
      var countryCode := cleaned[..2];
      if !(IsUpper(countryCode[0]) && IsUpper(countryCode[1])) then Invalid(NoCountryCode)
      else if countryCode !in IbanLengths then Invalid(UnsupportedCountry(countryCode))
      else if |cleaned| != IbanLengths[countryCode] then
        Invalid(WrongLength(countryCode, IbanLengths[countryCode], |cleaned|))
      else if !AllUpperAlnum(cleaned) then Invalid(InvalidCharacters)
      else if Mod97(IbanToDigits(cleaned)) != 1 then Invalid(BadChecksum)
      else Valid(cleaned, FormatIban(cleaned), countryCode)
  }

  // ----- Lemmas -----

  lemma CleanShape(input: string)
    ensures NoneIn(Clean(input), Whitespace)
    ensures forall i :: 0 <= i < |Clean(input)| ==> !IsLower(Clean(input)[i])
  {
    var s := Strip(input, Whitespace);
    assert forall i :: 0 <= i < |s| ==> ToUpper(s)[i] == UpperChar(s[i]);
  }

  /** `((a mod 97) * k + b) mod 97 = (a * k + b) mod 97`. */
  lemma ModMulAdd(a: nat, k: nat, b: nat)
    ensures ((a % 97) * k + b) % 97 == (a * k + b) % 97
  {
    var q := a / 97;
    assert a == 97 * q + a % 97;
    assert a * k == 97 * (q * k) + (a % 97) * k by {
      assert a * k == (97 * q + a % 97) * k;
    }
    ModAddMultiple((a % 97) * k + b, q * k);
  }

  lemma ModAddMultiple(x: nat, m: nat)
    ensures (x + 97 * m) % 97 == x % 97
  {
  }

  lemma {:induction false} Mod97FromValue(r: nat, s: string)
    requires r < 97 && AllDigits(s)
    ensures Mod97From(r, s) == (r * Pow10(|s|) + NumericValue(s)) % 97
    decreases |s|
  {
    if |s| > 0 {
      var d := DigitValue(s[0]);
      var p := Pow10(|s| - 1);
      var rest := NumericValue(s[1..]);
      assert Pow10(|s|) == 10 * p;
      assert NumericValue(s) == d * p + rest;
      Mod97FromValue((r * 10 + d) % 97, s[1..]);
      ModMulAdd(r * 10 + d, p, rest);
      Horner(r, d, p);
    }
  }

  lemma Horner(r: nat, d: nat, p: nat)
    ensures (r * 10 + d) * p == r * (10 * p) + d * p
  {
  }

  lemma {:induction false} ExpandConcat(a: string, b: string)
    ensures ExpandLetters(a + b) == ExpandLetters(a) + ExpandLetters(b)
    decreases |a|
  {
    if |a| == 0 {
      assert a + b == b;
    } else {
      assert (a + b)[1..] == a[1..] + b;
      ExpandConcat(a[1..], b);
    }
  }

  lemma {:induction false} LetterCountConcat(a: string, b: string)
    ensures LetterCount(a + b) == LetterCount(a) + LetterCount(b)
    decreases |a|
  {
    if |a| == 0 {
      assert a + b == b;
    } else {
      assert (a + b)[1..] == a[1..] + b;
      LetterCountConcat(a[1..], b);
    }
  }

  /** A letter's code is two decimal digits whose value is its ISO 7064
      value: A = 10 … Z = 35. */
  lemma LetterCode(c: char)
    requires IsUpper(c)
    ensures |CharDigits(c)| == 2 && AllDigits(CharDigits(c))
    ensures NumericValue(CharDigits(c)) == c as int - 'A' as int + 10
  {
    var n := c as int - 55;
    var x := ('0' as int + n / 10) as char;
    var y := ('0' as int + n % 10) as char;
    assert NatToString(n / 10) == [x];
    assert CharDigits(c) == [x, y];
    assert NumericValue([y]) == DigitValue(y);
    assert NumericValue([x, y]) == DigitValue(x) * 10 + NumericValue([y]) by {
      assert [x, y][1..] == [y];
    }
  }

  lemma IbanToDigitsShape(s: string)
    ensures AllUpperAlnum(s) ==> AllDigits(ExpandLetters(Rotate(s))) && |ExpandLetters(Rotate(s))| == |s| + LetterCount(s)
    ensures |s| >= 4 ==> ExpandLetters(Rotate(s)) == ExpandLetters(s[4..]) + ExpandLetters(s[..4])
  {
    if |s| >= 4 {
      ExpandConcat(s[4..], s[..4]);
      LetterCountConcat(s[4..], s[..4]);
      LetterCountConcat(s[..4], s[4..]);
      assert s[..4] + s[4..] == s;
    }
    if AllUpperAlnum(s) {
      ExpandShape(Rotate(s));
    }
  }

  lemma {:induction false} ExpandShape(s: string)
    requires AllUpperAlnum(s)
    ensures AllDigits(ExpandLetters(s))
    ensures |ExpandLetters(s)| == |s| + LetterCount(s)
    decreases |s|
  {
    if |s| > 0 {
      ExpandShape(s[1..]);
      if IsUpper(s[0]) {
        LetterCode(s[0]);
      }
    }
  }

  // ----- Properties of validateIBAN -----

  /** The checks run in a fixed order and the error reported is that of the
      first one to fail. */
  lemma CheckOrder(input: string)
    ensures var r := ValidateIban(input); var c := Clean(input);
      && (r == Invalid(EmptyInput) <==> input == "")
      && (r == Invalid(TooShort) <==> input != "" && |c| < 4)
      && (r == Invalid(NoCountryCode) <==> input != "" && |c| >= 4 && !(IsUpper(c[0]) && IsUpper(c[1])))
      && (|c| >= 4 && r == Invalid(UnsupportedCountry(c[..2])) <==>
            input != "" && |c| >= 4 && IsUpper(c[0]) && IsUpper(c[1]) && c[..2] !in IbanLengths)
      && (|c| >= 4 && c[..2] in IbanLengths && r == Invalid(WrongLength(c[..2], IbanLengths[c[..2]], |c|)) <==>
            input != "" && |c| >= 4 && IsUpper(c[0]) && IsUpper(c[1]) && c[..2] in IbanLengths
            && |c| != IbanLengths[c[..2]])
      && (r == Invalid(InvalidCharacters) <==>
            input != "" && |c| >= 4 && IsUpper(c[0]) && IsUpper(c[1]) && c[..2] in IbanLengths
            && |c| == IbanLengths[c[..2]] && !AllUpperAlnum(c))
      && (r == Invalid(BadChecksum) <==>
            input != "" && |c| >= 4 && IsUpper(c[0]) && IsUpper(c[1]) && c[..2] in IbanLengths
            && |c| == IbanLengths[c[..2]] && AllUpperAlnum(c) && NumericValue(IbanToDigits(c)) % 97 != 1)
  {
  }

  /** Input consisting only of white space is too short, not empty. */
  lemma WhitespaceOnlyTooShort(input: string)
    requires input != "" && forall i :: 0 <= i < |input| ==> input[i] in Whitespace
    ensures ValidateIban(input) == Invalid(TooShort)
  {
    StripAllWhitespace(input);
  }

  /** Lower-case input, upper-case input and input with white space removed
      all validate exactly as the original does. */
  lemma NormalisationInvariant(input: string)
    ensures ValidateIban(ToLower(input)) == ValidateIban(input)
    ensures ValidateIban(ToUpper(input)) == ValidateIban(input)
    ensures Strip(input, Whitespace) != "" ==> ValidateIban(Strip(input, Whitespace)) == ValidateIban(input)
  {
    var s := Strip(input, Whitespace);
    if input != "" {
      StripToLower(input, Whitespace);
      StripToUpper(input, Whitespace);
      UpperOfLower(s);
      SameCleanSameResult(ToLower(input), input);
      SameCleanSameResult(ToUpper(input), input);
      if s != "" {
        StripTwice(input, Whitespace, Whitespace);
        SameCleanSameResult(s, input);
      }
    } else {
      assert ToLower(input) == input == ToUpper(input);
    }
  }

  lemma SameCleanSameResult(a: string, b: string)
    requires a != "" && b != "" && Clean(a) == Clean(b)
    ensures ValidateIban(a) == ValidateIban(b)
  {
  }

  /** Validating the formatted form of a valid IBAN gives back the same result. */
  lemma FormattedRevalidates(input: string)
    requires ValidateIban(input).Valid?
    ensures ValidateIban(ValidateIban(input).formatted) == ValidateIban(input)
  {
    var r := ValidateIban(input);
    var v := r.value;
    StripTwice(r.formatted, {' '}, Whitespace);
    StripNoop(v, Whitespace);
    assert Strip(r.formatted, Whitespace) == v;
    ToUpperIdentity(v);
    assert Clean(r.formatted) == v;
    assert Clean(v) == v;
    assert |v| <= |r.formatted|;
  }

  // ----- Single-digit errors are always detected -----

  lemma {:induction false} NumericValueConcat(a: string, b: string)
    requires AllDigits(a) && AllDigits(b)
    ensures NumericValue(a + b) == NumericValue(a) * Pow10(|b|) + NumericValue(b)
    decreases |a|
  {
    if |a| == 0 {
      assert a + b == b;
    } else {
      assert (a + b)[1..] == a[1..] + b;
      NumericValueConcat(a[1..], b);
      PowAdd(|a| - 1, |b|);
      var d := DigitValue(a[0]);
      assert NumericValue(a + b) == d * Pow10(|a| - 1 + |b|) + NumericValue(a[1..]) * Pow10(|b|) + NumericValue(b);
      Horner2(d, Pow10(|a| - 1), Pow10(|b|), NumericValue(a[1..]));
    }
  }

  lemma Horner2(d: nat, p: nat, q: nat, v: nat)
    ensures d * (p * q) + v * q == (d * p + v) * q
  {
  }

  lemma {:induction false} PowAdd(m: nat, n: nat)
    ensures Pow10(m + n) == Pow10(m) * Pow10(n)
    decreases m
  {
    if m > 0 {
      PowAdd(m - 1, n);
    }
  }

  /** 97 divides `10 * t` only when it divides `t`: 10 is invertible modulo
      the prime 97 (10 * 68 = 7 * 97 + 1). */
  lemma TenInvertible(t: int)
    requires (10 * t) % 97 == 0
    ensures t % 97 == 0
  {
    var m := (10 * t) / 97;
    assert 10 * t == 97 * m;
    assert t == 68 * (10 * t) - 97 * (7 * t);
    assert t == 97 * (68 * m - 7 * t);
  }

  lemma {:induction false} ShiftedDigitNotMultiple(z: int, k: nat)
    requires 0 < z < 10 || -10 < z < 0
    ensures (z * Pow10(k)) % 97 != 0
    decreases k
  {
    if k > 0 {
      ShiftedDigitNotMultiple(z, k - 1);
      var t := z * Pow10(k - 1);
      assert z * Pow10(k) == 10 * t;
      if (10 * t) % 97 == 0 {
        TenInvertible(t);
      }
    }
  }

  /** Changing one digit of a digit string changes its remainder modulo 97. */
  lemma SubstitutionChangesMod97(p: string, x: char, y: char, q: string)
    requires AllDigits(p) && AllDigits(q) && IsDigit(x) && IsDigit(y) && x != y
    ensures NumericValue(p + [x] + q) % 97 != NumericValue(p + [y] + q) % 97
  {
    SplitAtDigit(p, x, q);
    SplitAtDigit(p, y, q);
    var h := NumericValue(p) * 10;
    var pq := Pow10(|q|);
    DiffOfShifted(h, DigitValue(x), DigitValue(y), pq, NumericValue(q));
    RemaindersDiffer(NumericValue(p + [x] + q), NumericValue(p + [y] + q), DigitValue(x) - DigitValue(y), |q|);
  }

  lemma RemaindersDiffer(a: int, b: int, z: int, k: nat)
    requires 0 < z < 10 || -10 < z < 0
    requires a - b == z * Pow10(k)
    ensures a % 97 != b % 97
  {
    ShiftedDigitNotMultiple(z, k);
    if a % 97 == b % 97 {
      SameRemainder(a, b);
    }
  }

  lemma SameRemainder(a: int, b: int)
    requires a % 97 == b % 97
    ensures (a - b) % 97 == 0
  {
    assert a - b == 97 * (a / 97 - b / 97);
  }

  lemma DiffOfShifted(h: int, dx: int, dy: int, pq: int, v: int)
    ensures ((h + dx) * pq + v) - ((h + dy) * pq + v) == (dx - dy) * pq
  {
  }

  lemma SplitAtDigit(p: string, x: char, q: string)
    requires AllDigits(p) && AllDigits(q) && IsDigit(x)
    ensures NumericValue(p + [x] + q) == (NumericValue(p) * 10 + DigitValue(x)) * Pow10(|q|) + NumericValue(q)
  {
    var px := p + [x];
    assert AllDigits(px);
    NumericValueConcat(px, q);
    AppendDigit(p, x);
    var a, d, v, k := NumericValue(p), DigitValue(x), NumericValue(q), Pow10(|q|);
    assert NumericValue(px) == a * 10 + d;
    assert NumericValue(px + q) == NumericValue(px) * k + v;
    assert px + q == p + [x] + q;
  }

  lemma AppendDigit(p: string, x: char)
    requires AllDigits(p) && IsDigit(x)
    ensures NumericValue(p + [x]) == NumericValue(p) * 10 + DigitValue(x)
  {
    NumericValueConcat(p, [x]);
    assert Pow10(1) == 10;
    assert [x][1..] == [];
    assert NumericValue([x]) == DigitValue(x);
  }

  /** Replacing any one digit of a valid IBAN by a different digit always
      yields an IBAN whose checksum fails. */
  lemma SingleDigitErrorDetected(v: string, i: nat, y: char)
    requires WellFormed(v) && i < |v| && IsDigit(v[i]) && IsDigit(y) && y != v[i]
    ensures !WellFormed(v[i := y])
    ensures ValidateIban(v[i := y]).Invalid?
  {
    var w := v[i := y];
    ChecksumChanges(v, i, y);
    assert AllUpperAlnum(w);
    CleanOfCanonical(w);
    assert w != "";
  }

  /** The substitution changes the remainder of the rearranged number. */
  lemma ChecksumChanges(v: string, i: nat, y: char)
    requires 4 <= |v| && AllUpperAlnum(v) && i < |v| && IsDigit(v[i]) && IsDigit(y) && y != v[i]
    ensures AllUpperAlnum(v[i := y])
    ensures NumericValue(IbanToDigits(v)) % 97 != NumericValue(IbanToDigits(v[i := y])) % 97
  {
    var w := v[i := y];
    var rv := Rotate(v);
    var j := RotatedPosition(v, i, y);
    var pre := rv[..j];
    var post := rv[j + 1..];
    ExpandAroundDigit(pre, v[i], post);
    ExpandAroundDigit(pre, y, post);
    assert AllUpperAlnum(rv);
    assert AllUpperAlnum(pre) && AllUpperAlnum(post) by {
      assert forall k :: 0 <= k < |pre| ==> pre[k] == rv[k];
      assert forall k :: 0 <= k < |post| ==> post[k] == rv[j + 1 + k];
    }
    ExpandShape(pre);
    ExpandShape(post);
    SubstitutionChangesMod97(ExpandLetters(pre), v[i], y, ExpandLetters(post));
  }

  /** Where character `i` of `v` lands after the first four are moved to the
      end; substituting it commutes with the rotation. */
  lemma RotatedPosition(v: string, i: nat, y: char) returns (j: nat)
    requires 4 <= |v| && i < |v|
    ensures j < |v|
    ensures Rotate(v) == Rotate(v)[..j] + [v[i]] + Rotate(v)[j + 1..]
    ensures Rotate(v[i := y]) == Rotate(v)[..j] + [y] + Rotate(v)[j + 1..]
  {
    j := if i >= 4 then i - 4 else |v| - 4 + i;
    var w := v[i := y];
    assert Rotate(v)[j] == v[i];
    assert Rotate(w) == Rotate(v)[j := y];
  }

  lemma ExpandAroundDigit(pre: string, c: char, post: string)
    requires IsDigit(c)
    ensures ExpandLetters(pre + [c] + post) == ExpandLetters(pre) + [c] + ExpandLetters(post)
  {
    ExpandConcat(pre + [c], post);
    ExpandConcat(pre, [c]);
    assert ExpandLetters([c]) == [c] + ExpandLetters([]);
  }

  /** A string that is already upper-case and free of white space is its own
      cleaned form. */
  lemma CleanOfCanonical(w: string)
    requires AllUpperAlnum(w)
    ensures Clean(w) == w
  {
    StripNoop(w, Whitespace);
    ToUpperIdentity(w);
  }
}

=== FILE: luhn.dfy ===
/** The Luhn check of ISO/IEC 7812-1 (Annex B), as the inline loop of
    `validateCardNumber` (src/card.ts) and the `luhn` helper of
    src/creditcard.ts both compute it: walk the digits from the right,
    doubling every second one and subtracting 9 from a doubled value above 9. */
module Luhn {
  import opened Text

  /** One digit's share of the sum. */
  function Contribution(d: nat, double: bool): (r: nat)
    requires d <= 9
    ensures r <= 9
  {
    if double then (if 2 * d > 9 then 2 * d - 9 else 2 * d) else d
  }

  /** The loop: the last digit of `s` is taken with `shouldDouble`, and the
      flag flips for each digit further left. */
  function LuhnSum(s: string, shouldDouble: bool): nat
    requires AllDigits(s)
    decreases |s|
  {
    if |s| == 0 then 0
    else Contribution(DigitValue(s[|s| - 1]), shouldDouble) + LuhnSum(s[..|s| - 1], !shouldDouble)
  }

  /** `luhn(digits)`: the sum taken from the rightmost digit is a multiple
      of 10; equivalently, the sum that doubles exactly the digits at odd
      offsets from the right is. */
  predicate Passes(s: string): (r: bool)
    requires AllDigits(s)
    ensures r <==> OffsetSum(s, false) % 10 == 0
  {
    LoopMatchesOffsets(s, false);
    LuhnSum(s, false) % 10 == 0
  }

  /** Reference definition read left to right: digit `i` is doubled exactly
      when its offset from the right end, `|s| - 1 - i`, is odd (with the
      roles of odd and even swapped when `flip` holds). */
  function OffsetSum(s: string, flip: bool): nat
    requires AllDigits(s)
  {
    if |s| == 0 then 0
    else Contribution(DigitValue(s[0]), ((|s| - 1) % 2 == 1) != flip) + OffsetSum(s[1..], flip)
  }

  function DecimalDigitSum(n: nat): nat
  {
    if n < 10 then n else n % 10 + DecimalDigitSum(n / 10)
  }

  // ----- Lemmas -----

  /** Doubling and subtracting 9 above 9 is summing the decimal digits of the
      doubled value. */
  lemma DoubledIsDigitSum(d: nat)
    requires d <= 9
    ensures Contribution(d, true) == DecimalDigitSum(2 * d)
  {
    if 2 * d >= 10 {
      assert DecimalDigitSum(2 * d) == (2 * d) % 10 + DecimalDigitSum((2 * d) / 10);
      assert (2 * d) / 10 == 1;
    }
  }

  lemma {:induction false} OffsetSumAppend(p: string, c: char, flip: bool)
    requires AllDigits(p) && IsDigit(c)
    ensures OffsetSum(p + [c], flip) == OffsetSum(p, !flip) + Contribution(DigitValue(c), flip)
    decreases |p|
  {
    if |p| == 0 {
      assert p + [c] == [c];
      assert [c][1..] == [];
    } else {
      assert (p + [c])[1..] == p[1..] + [c];
      OffsetSumAppend(p[1..], c, flip);
    }
  }

  /** The right-to-left loop and the left-to-right offset reading agree:
      the digits doubled are exactly those at odd offsets from the right. */
  lemma {:induction false} LoopMatchesOffsets(s: string, flip: bool)
    requires AllDigits(s)
    ensures LuhnSum(s, flip) == OffsetSum(s, flip)
    decreases |s|
  {
    if |s| > 0 {
      var p := s[..|s| - 1];
      LoopMatchesOffsets(p, !flip);
      OffsetSumAppend(p, s[|s| - 1], flip);
      assert p + [s[|s| - 1]] == s;
    }
  }

  lemma {:induction false} OffsetSumConcat(a: string, b: string, flip: bool)
    requires AllDigits(a) && AllDigits(b)
    ensures OffsetSum(a + b, flip) == OffsetSum(a, flip != (|b| % 2 == 1)) + OffsetSum(b, flip)
    decreases |a|
  {
    if |a| == 0 {
      assert a + b == b;
    } else {
      assert (a + b)[1..] == a[1..] + b;
      OffsetSumConcat(a[1..], b, flip);
      ParityOfSum(|a| - 1, |b|);
      assert |a + b| - 1 == |a| - 1 + |b|;
    }
  }

  lemma ParityOfSum(m: nat, n: nat)
    ensures ((m + n) % 2 == 1) == ((m % 2 == 1) != (n % 2 == 1))
  {
  }

  /** For a fixed doubling decision, distinct digits contribute distinct
      amounts (doubling permutes 0..9). */
  lemma ContributionInjective(x: nat, y: nat, double: bool)
    requires x <= 9 && y <= 9 && x != y
    ensures Contribution(x, double) != Contribution(y, double)
  {
  }

  /** Replacing any one digit by a different digit changes the outcome of a
      passing check: every single-digit error is detected. */
  lemma SingleDigitErrorDetected(p: string, x: char, y: char, q: string)
    requires AllDigits(p) && AllDigits(q) && IsDigit(x) && IsDigit(y) && x != y
    requires Passes(p + [x] + q)
    ensures !Passes(p + [y] + q)
  {
    var sx := p + [x] + q;
    var sy := p + [y] + q;
    LoopMatchesOffsets(sx, false);
    LoopMatchesOffsets(sy, false);
    var t := |q| % 2 == 1;
    OffsetSumConcat(p + [x], q, false);
    OffsetSumConcat(p + [y], q, false);
    OffsetSumAppend(p, x, t);
    OffsetSumAppend(p, y, t);
    ContributionInjective(DigitValue(x), DigitValue(y), t);
    var cx := Contribution(DigitValue(x), t);
    var cy := Contribution(DigitValue(y), t);
    var rest := OffsetSum(p, !t) + OffsetSum(q, false);
    assert OffsetSum(sx, false) == rest + cx;
    assert OffsetSum(sy, false) == rest + cy;
    DistinctSmallAddends(rest, cx, cy);
  }

  lemma DistinctSmallAddends(n: nat, a: nat, b: nat)
    requires a <= 9 && b <= 9 && a != b
    ensures (n + a) % 10 != 0 || (n + b) % 10 != 0
  {
  }
}

=== FILE: prefix.dfy ===
/** Anchored prefix patterns and first-match classification.

    The card validators classify a digit string with regular expressions of
    the form `^(alt1|alt2|…)`, where every alternative is a fixed sequence of
    character classes (`4`, `5[1-5]`, `3[47]`, `2[3-6]\d{2}`, …). Such a
    pattern is data here: a `Pattern` is one alternative and a `Rule` pairs a
    result with its alternatives. `detectNetwork` (src/card.ts) is an ordered
    chain of such tests and `ISSUER_PATTERNS.find` (src/creditcard.ts) scans
    an ordered table; both are `FirstMatch`. */
module Prefix {
  import opened Text

  datatype Class =
    | Is(c: char)                  // a literal character
    | Range(lo: char, hi: char)    // `[lo-hi]`, and `\d` as `[0-9]`
    | OneOf(cs: set<char>)         // `[47]`, `[01]`

  predicate Accepts(k: Class, c: char)
  {
    match k
    case Is(x) => c == x
    case Range(lo, hi) => lo <= c <= hi
    case OneOf(cs) => c in cs
  }

  type Pattern = seq<Class>

  /** A literal prefix, one `Is` per character: it matches exactly the
      strings that start with `s`. */
  function Lit(s: string): (p: Pattern)
    ensures |p| == |s| && forall i :: 0 <= i < |s| ==> p[i] == Is(s[i])
    ensures forall t :: Matches(p, t) <==> HasPrefix(t, s)
  {
    var p := seq(|s|, i requires 0 <= i < |s| => Is(s[i]));
    forall t
      ensures Matches(p, t) <==> HasPrefix(t, s)
    {
      if |s| <= |t| && forall i :: 0 <= i < |s| ==> t[i] == s[i] {
        assert t[..|s|] == s;
      }
    }
    p
  }

  /** `^p` tested against `s`. */
  predicate Matches(p: Pattern, s: string)
  {
    |p| <= |s| && forall i :: 0 <= i < |p| ==> Accepts(p[i], s[i])
  }

  /** `^(alt1|alt2|…)` tested against `s`. */
  predicate MatchesAny(alts: seq<Pattern>, s: string)
  {
    exists k :: 0 <= k < |alts| && Matches(alts[k], s)
  }

  datatype Rule<T> = Rule(tag: T, alts: seq<Pattern>)

  /** The tag of the first rule that matches `s`, or `otherwise` when none does. */
  function FirstMatch<T>(rules: seq<Rule<T>>, s: string, otherwise: T): (r: T)
    ensures (forall i :: 0 <= i < |rules| ==> !MatchesAny(rules[i].alts, s)) ==> r == otherwise
    ensures (exists i :: 0 <= i < |rules| && MatchesAny(rules[i].alts, s)) ==>
      exists i :: 0 <= i < |rules| && MatchesAny(rules[i].alts, s) && r == rules[i].tag
        && forall j :: 0 <= j < i ==> !MatchesAny(rules[j].alts, s)
  {
    if |rules| == 0 then otherwise
    else if MatchesAny(rules[0].alts, s) then rules[0].tag
    else
      var r := FirstMatch(rules[1..], s, otherwise);
      assert forall i :: 1 <= i < |rules| ==> rules[i] == rules[1..][i - 1];
      r
  }

}

=== FILE: sortcode.dfy ===
/** UK sort code and account number validation (src/sortcode_and_account_number.ts). */
module UkBank {
  import opened Text

  datatype UkError = EmptyInput | BadSortCode | BadAccountNumber

  datatype UkResult = Valid(value: string, formatted: string) | Invalid(error: UkError)

  function Message(e: UkError): string
  {
    match e
    case EmptyInput => "Input must be a non-empty string"
    case BadSortCode => "Sort code must be exactly 6 digits. Accepted formats: 60-16-13, 601613, 60 16 13"
    case BadAccountNumber => "UK account number must be exactly 8 digits"
  }

  /** `^\d{n}$`. */
  predicate Digits(s: string, n: nat)
  {
    |s| == n && AllDigits(s)
  }

  // ----- Sort codes -----

  /** `input.replace(/[-\s]/g, '')`. */
  function CleanSortCode(input: string): string
  {
    StripSeparators(input)
  }

  /** `validateUKSortCode`. An empty input has nothing to clean, so the
      empty-input check never changes whether the result is valid. */
  function ValidateSortCode(input: string): (r: UkResult)
    ensures r.Valid? <==> Digits(CleanSortCode(input), 6)
    ensures r.Valid? ==> r.value == CleanSortCode(input)
    ensures r.Valid? ==> |r.formatted| == 8 && r.formatted[2] == '-' && r.formatted[5] == '-'
    ensures r.Valid? ==> Strip(r.formatted, {'-'}) == r.value
    ensures r == Invalid(EmptyInput) <==> input == ""
    ensures r == Invalid(BadSortCode) <==> input != "" && !Digits(CleanSortCode(input), 6)
    ensures r != Invalid(BadAccountNumber)
  {
    if input == "" then Invalid(EmptyInput)
    else
      var cleaned := CleanSortCode(input);
      if !Digits(cleaned, 6) then Invalid(BadSortCode)
      else
        var formatted := cleaned[0..2] + "-" + cleaned[2..4] + "-" + cleaned[4..6];
        JoinThreeDehyphens(cleaned[0..2], cleaned[2..4], cleaned[4..6]);
        assert cleaned[0..2] + cleaned[2..4] + cleaned[4..6] == cleaned;
        Valid(cleaned, formatted)
  }

  // ----- Account numbers -----

  /** `input.replace(/\s/g, '')`: hyphens are kept, and then fail the digit test. */
  function CleanAccountNumber(input: string): string
  {
    Strip(input, Whitespace)
  }

  /** `validateUKAccountNumber`. */
  function ValidateAccountNumber(input: string): (r: UkResult)
    ensures r.Valid? <==> Digits(CleanAccountNumber(input), 8)
    ensures r.Valid? ==> r.value == CleanAccountNumber(input)
    ensures r.Valid? ==> |r.formatted| == 9 && r.formatted[4] == ' '
    ensures r.Valid? ==> Strip(r.formatted, {' '}) == r.value
    ensures r == Invalid(EmptyInput) <==> input == ""
    ensures r == Invalid(BadAccountNumber) <==> input != "" && !Digits(CleanAccountNumber(input), 8)
    ensures r != Invalid(BadSortCode)
  {
    if input == "" then Invalid(EmptyInput)
    else
      var cleaned := CleanAccountNumber(input);
      if !Digits(cleaned, 8) then Invalid(BadAccountNumber)
      else
        var formatted := cleaned[0..4] + " " + cleaned[4..8];
        StripAround(cleaned[0..4], ' ', cleaned[4..8], {' '});
        StripNoop(cleaned[0..4], {' '});
        StripNoop(cleaned[4..8], {' '});
        assert cleaned[0..4] + cleaned[4..8] == cleaned;
        Valid(cleaned, formatted)
  }

  // ----- Lemmas -----

  lemma JoinThreeDehyphens(a: string, b: string, c: string)
    requires AllDigits(a) && AllDigits(b) && AllDigits(c)
    ensures Strip(a + "-" + b + "-" + c, {'-'}) == a + b + c
  {
    StripAround(a + "-" + b, '-', c, {'-'});
    StripAround(a, '-', b, {'-'});
    StripNoop(a, {'-'});
    StripNoop(b, {'-'});
    StripNoop(c, {'-'});
  }

  /** A formatted sort code validates to itself: formatting is idempotent. */
  lemma SortCodeFormattedRevalidates(input: string)
    requires ValidateSortCode(input).Valid?
    ensures var r := ValidateSortCode(input);
      ValidateSortCode(r.formatted) == r
  {
    var r := ValidateSortCode(input);
    StripTwice(r.formatted, {'-'}, WhitespaceOrHyphen);
    assert NoneIn(r.value, WhitespaceOrHyphen);
    StripNoop(r.value, WhitespaceOrHyphen);
  }

  /** A formatted account number validates to itself. */
  lemma AccountFormattedRevalidates(input: string)
    requires ValidateAccountNumber(input).Valid?
    ensures var r := ValidateAccountNumber(input);
      ValidateAccountNumber(r.formatted) == r
  {
    var r := ValidateAccountNumber(input);
    StripTwice(r.formatted, {' '}, Whitespace);
    assert NoneIn(r.value, Whitespace);
    StripNoop(r.value, Whitespace);
  }

  /** Sort codes accept hyphens as separators; account numbers do not: any
      hyphen in the input makes the account number invalid. */
  lemma HyphenatedAccountRejected(input: string, i: nat)
    requires i < |input| && input[i] == '-'
    ensures ValidateAccountNumber(input) == Invalid(BadAccountNumber)
  {
    HyphenSurvives(input, i);
  }

  lemma {:induction false} HyphenSurvives(s: string, i: nat)
    requires i < |s| && s[i] == '-'
    ensures exists j :: 0 <= j < |Strip(s, Whitespace)| && Strip(s, Whitespace)[j] == '-'
    decreases |s|
  {
    if i == 0 {
      assert Strip(s, Whitespace)[0] == '-';
    } else {
      HyphenSurvives(s[1..], i - 1);
      var j :| 0 <= j < |Strip(s[1..], Whitespace)| && Strip(s[1..], Whitespace)[j] == '-';
      if s[0] !in Whitespace {
        assert Strip(s, Whitespace)[j + 1] == '-';
      } else {
        assert Strip(s, Whitespace) == Strip(s[1..], Whitespace);
      }
    }
  }

  /** Every way of writing a sort code that differs only in separators is
      read as the same sort code. */
  lemma SeparatorsIgnored(a: string, b: string)
    requires Strip(a, WhitespaceOrHyphen) == Strip(b, WhitespaceOrHyphen)
    requires a != "" && b != ""
    ensures ValidateSortCode(a) == ValidateSortCode(b)
  {
  }

  /** An accepted sort code is returned as its six digits, displayed in
      pairs joined by hyphens. */
  lemma AcceptedSortCode(input: string)
    requires input != "" && Digits(CleanSortCode(input), 6)
    ensures var c := CleanSortCode(input);
      ValidateSortCode(input) == Valid(c, c[0..2] + "-" + c[2..4] + "-" + c[4..6])
  {
  }
}

=== FILE: text.dfy ===
/** Character classes and string helpers shared by every validator.

    Input is treated as ASCII for case mapping: upper-casing maps `a`..`z` to
    `A`..`Z` and leaves every other character alone. The regular-expression
    class `\s` is modelled by the fixed set `Whitespace`. */
module Text {

  /** The characters `\s` and `String.prototype.trim` treat as white space. */
  const Whitespace: set<char> := {' ', '\t', '\n', '\r', '\U{000B}', '\U{000C}'}

  /** The class `[\s-]` (or `[-\s]`) the card and sort-code validators remove. */
  const WhitespaceOrHyphen: set<char> := Whitespace + {'-'}

  predicate IsDigit(c: char) { '0' <= c <= '9' }
  predicate IsUpper(c: char) { 'A' <= c <= 'Z' }
  predicate IsLower(c: char) { 'a' <= c <= 'z' }

  /** The class `[A-Z0-9]`. */
  predicate IsUpperAlnum(c: char) { IsUpper(c) || IsDigit(c) }

  /** `^\d+$` without the non-emptiness: every character is an ASCII digit. */
  predicate AllDigits(s: string) { forall i :: 0 <= i < |s| ==> IsDigit(s[i]) }

  /** `^[A-Z]*$`. */
  predicate AllUpper(s: string) { forall i :: 0 <= i < |s| ==> IsUpper(s[i]) }

  predicate AllUpperAlnum(s: string) { forall i :: 0 <= i < |s| ==> IsUpperAlnum(s[i]) }

  predicate NoneIn(s: string, cs: set<char>) { forall i :: 0 <= i < |s| ==> s[i] !in cs }

  function DigitValue(c: char): nat
    requires IsDigit(c)
  {
    c as int - '0' as int
  }

  function UpperChar(c: char): char
  {
    if IsLower(c) then (c as int - 32) as char else c
  }

  function LowerChar(c: char): char
  {
    if IsUpper(c) then (c as int + 32) as char else c
  }

  /** `toUpperCase` restricted to ASCII: no lower-case letter remains, and
      every other character is kept where it was. */
  function ToUpper(s: string): (r: string)
    ensures |r| == |s|
    ensures forall i :: 0 <= i < |r| ==> !IsLower(r[i])
    ensures forall i :: 0 <= i < |s| && !IsLower(s[i]) ==> r[i] == s[i]
    ensures forall i :: 0 <= i < |s| && IsLower(s[i]) ==> IsUpper(r[i]) && LowerChar(r[i]) == s[i]
  {
    seq(|s|, i requires 0 <= i < |s| => UpperChar(s[i]))
  }

  /** ASCII `toLowerCase`. */
  function ToLower(s: string): (r: string)
  {
    seq(|s|, i requires 0 <= i < |s| => LowerChar(s[i]))
  }

  /** `s.replace(/[…]/g, '')`: every character of `drop` removed. */
  function Strip(s: string, drop: set<char>): (r: string)
    ensures NoneIn(r, drop)
    ensures |r| + CountIn(s, drop) == |s|
  {
    if |s| == 0 then []
    else if s[0] in drop then Strip(s[1..], drop)
    else [s[0]] + Strip(s[1..], drop)
  }

  /** `input.replace(/[\s-]/g, '')`, the normalisation shared by the card
      validators and the sort-code check: no white space or hyphen is left,
      stripping again changes nothing, and input without them is returned
      as it is. */
  function StripSeparators(input: string): (r: string)
    ensures NoneIn(r, WhitespaceOrHyphen)
    ensures Strip(r, WhitespaceOrHyphen) == r
    ensures NoneIn(input, WhitespaceOrHyphen) ==> r == input
  {
    var r := Strip(input, WhitespaceOrHyphen);
    StripNoop(r, WhitespaceOrHyphen);
    assert NoneIn(input, WhitespaceOrHyphen) ==> r == input by {
      if NoneIn(input, WhitespaceOrHyphen) {
        StripNoop(input, WhitespaceOrHyphen);
      }
    }
    r
  }

  /** Number of characters of `s` that belong to `cs`. */
  function CountIn(s: string, cs: set<char>): nat
  {
    if |s| == 0 then 0 else (if s[0] in cs then 1 else 0) + CountIn(s[1..], cs)
  }

  predicate HasPrefix(s: string, p: string) { |p| <= |s| && s[..|p|] == p }

  predicate HasSuffix(s: string, p: string) { |p| <= |s| && s[|s| - |p|..] == p }

  /** `String.prototype.slice(lo, hi)` for non-negative bounds: both ends are
      clamped to the length, and an empty string results when they cross. */
  function Slice(s: string, lo: nat, hi: nat): (r: string)
    ensures |r| <= |s|
    ensures lo <= hi <= |s| ==> r == s[lo..hi]
    ensures hi <= lo ==> r == []
  {
    var h := if hi <= |s| then hi else |s|;
    var l := if lo <= h then lo else h;
    s[l..h]
  }

  function TrimStart(s: string): (r: string)
    ensures |r| <= |s|
    ensures |r| > 0 ==> r[0] !in Whitespace
  {
    if |s| > 0 && s[0] in Whitespace then TrimStart(s[1..]) else s
  }

  function TrimEnd(s: string): (r: string)
    ensures |r| <= |s|
    ensures |r| > 0 ==> r[|r| - 1] !in Whitespace
  {
    if |s| > 0 && s[|s| - 1] in Whitespace then TrimEnd(s[..|s| - 1]) else s
  }

  /** `String.prototype.trim`: white space dropped from both ends (see
      `TrimShape` for where the result sits inside `s`). */
  function Trim(s: string): (r: string)
    ensures |r| <= |s|
    ensures |r| > 0 ==> r[0] !in Whitespace
  {
    TrimStart(TrimEnd(s))
  }

  /** Decimal rendering of a natural number, as template literals print it. */
  function NatToString(n: nat): (r: string)
    ensures |r| > 0 && AllDigits(r)
  {
    var d := [('0' as int + n % 10) as char];
    if n < 10 then d else NatToString(n / 10) + d
  }

  // ----- Lemmas about the helpers -----

  /** `TrimStart` drops only leading white space: the result is a suffix. */
  lemma {:induction false} TrimStartShape(s: string)
    ensures var r := TrimStart(s); r == s[|s| - |r|..]
    ensures forall i :: 0 <= i < |s| - |TrimStart(s)| ==> s[i] in Whitespace
    decreases |s|
  {
    if |s| > 0 && s[0] in Whitespace {
      TrimStartShape(s[1..]);
    }
  }

  /** `TrimEnd` drops only trailing white space: the result is a prefix. */
  lemma {:induction false} TrimEndShape(s: string)
    ensures var r := TrimEnd(s); r == s[..|r|]
    ensures forall i :: |TrimEnd(s)| <= i < |s| ==> s[i] in Whitespace
    decreases |s|
  {
    if |s| > 0 && s[|s| - 1] in Whitespace {
      TrimEndShape(s[..|s| - 1]);
    }
  }

  /** `Trim(s)` is the contiguous run of `s` that starts at offset `k` and
      has only white space before and after it. */
  lemma TrimShape(s: string) returns (k: nat)
    ensures k + |Trim(s)| <= |s|
    ensures Trim(s) == s[k..k + |Trim(s)|]
    ensures forall i :: 0 <= i < k ==> s[i] in Whitespace
    ensures forall i :: k + |Trim(s)| <= i < |s| ==> s[i] in Whitespace
    ensures |Trim(s)| > 0 ==> Trim(s)[|Trim(s)| - 1] !in Whitespace
  {
    var e := TrimEnd(s);
    var r := TrimStart(e);
    TrimEndShape(s);
    TrimStartShape(e);
    k := |e| - |r|;
    assert forall i :: 0 <= i < k ==> s[i] == e[i];
  }

  lemma {:induction false} StripConcat(a: string, b: string, drop: set<char>)
    ensures Strip(a + b, drop) == Strip(a, drop) + Strip(b, drop)
    decreases |a|
  {
    if |a| == 0 {
      assert a + b == b;
    } else {
      assert (a + b)[1..] == a[1..] + b;
      StripConcat(a[1..], b, drop);
    }
  }

  lemma {:induction false} StripNoop(s: string, drop: set<char>)
    requires NoneIn(s, drop)
    ensures Strip(s, drop) == s
    decreases |s|
  {
    if |s| > 0 {
      StripNoop(s[1..], drop);
      assert [s[0]] + s[1..] == s;
    }
  }

  /** Removing a superset after a subset is removing the superset. */
  lemma {:induction false} StripTwice(s: string, d1: set<char>, d2: set<char>)
    requires d1 <= d2
    ensures Strip(Strip(s, d1), d2) == Strip(s, d2)
    decreases |s|
  {
    if |s| > 0 {
      StripTwice(s[1..], d1, d2);
      if s[0] !in d1 {
        assert [s[0]] + Strip(s[1..], d1) == [s[0]] + Strip(s[1..], d1);
        assert ([s[0]] + Strip(s[1..], d1))[1..] == Strip(s[1..], d1);
      }
    }
  }

  /** A separator from `drop` between two pieces disappears along with
      everything else in `drop`. */
  lemma StripAround(a: string, c: char, b: string, drop: set<char>)
    requires c in drop
    ensures Strip(a + [c] + b, drop) == Strip(a, drop) + Strip(b, drop)
  {
    StripConcat(a + [c], b, drop);
    StripConcat(a, [c], drop);
    StripSingle(c, drop);
  }

  lemma StripSingle(c: char, drop: set<char>)
    ensures Strip([c], drop) == if c in drop then [] else [c]
  {
    assert [c][1..] == [];
  }

  lemma ToUpperConcat(a: string, b: string)
    ensures ToUpper(a + b) == ToUpper(a) + ToUpper(b)
  {
  }

  lemma {:induction false} StripToUpper(s: string, drop: set<char>)
    requires forall c :: c in drop ==> !IsLower(c) && !IsUpper(c)
    ensures Strip(ToUpper(s), drop) == ToUpper(Strip(s, drop))
    decreases |s|
  {
    if |s| > 0 {
      StripToUpper(s[1..], drop);
      assert ToUpper(s)[1..] == ToUpper(s[1..]);
      assert ToUpper([s[0]] + Strip(s[1..], drop)) == [UpperChar(s[0])] + ToUpper(Strip(s[1..], drop));
    }
  }

  lemma {:induction false} StripToLower(s: string, drop: set<char>)
    requires forall c :: c in drop ==> !IsLower(c) && !IsUpper(c)
    ensures Strip(ToLower(s), drop) == ToLower(Strip(s, drop))
    decreases |s|
  {
    if |s| > 0 {
      StripToLower(s[1..], drop);
      assert ToLower(s)[1..] == ToLower(s[1..]);
      assert ToLower([s[0]] + Strip(s[1..], drop)) == [LowerChar(s[0])] + ToLower(Strip(s[1..], drop));
    }
  }

  /** Upper-casing forgets whatever case the input had. */
  lemma UpperOfLower(s: string)
    ensures ToUpper(ToLower(s)) == ToUpper(s)
    ensures ToUpper(ToUpper(s)) == ToUpper(s)
  {
  }

  lemma ToUpperIdentity(s: string)
    requires forall i :: 0 <= i < |s| ==> !IsLower(s[i])
    ensures ToUpper(s) == s
  {
  }

  lemma {:induction false} StripAllWhitespace(s: string)
    requires forall i :: 0 <= i < |s| ==> s[i] in Whitespace
    ensures Strip(s, Whitespace) == ""
    ensures Strip(s, WhitespaceOrHyphen) == ""
    decreases |s|
  {
    if |s| > 0 {
      StripAllWhitespace(s[1..]);
    }
  }

  /** Trimming only removes white space: once white space is stripped
      anyway, trimming first makes no difference. */
  lemma {:induction false} TrimStartStrip(s: string, d: set<char>)
    requires Whitespace <= d
    ensures Strip(TrimStart(s), d) == Strip(s, d)
    decreases |s|
  {
    if |s| > 0 && s[0] in Whitespace {
      TrimStartStrip(s[1..], d);
    }
  }

  lemma {:induction false} TrimEndStrip(s: string, d: set<char>)
    requires Whitespace <= d
    ensures Strip(TrimEnd(s), d) == Strip(s, d)
    decreases |s|
  {
    if |s| > 0 && s[|s| - 1] in Whitespace {
      var p := s[..|s| - 1];
      TrimEndStrip(p, d);
      assert p + [s[|s| - 1]] == s;
      StripConcat(p, [s[|s| - 1]], d);
      StripSingle(s[|s| - 1], d);
    }
  }

  lemma TrimStrip(s: string, d: set<char>)
    requires Whitespace <= d
    ensures Strip(Trim(s), d) == Strip(s, d)
  {
    TrimStartStrip(TrimEnd(s), d);
    TrimEndStrip(s, d);
  }

  /** Trimming keeps every character that is not white space. */
  lemma {:induction false} TrimStartKeeps(s: string, cs: set<char>)
    requires forall c :: c in cs ==> c !in Whitespace
    ensures NoneIn(TrimStart(s), cs) <==> NoneIn(s, cs)
    decreases |s|
  {
    if |s| > 0 && s[0] in Whitespace {
      TrimStartKeeps(s[1..], cs);
      assert NoneIn(s, cs) <==> NoneIn(s[1..], cs) by {
        assert forall i :: 1 <= i < |s| ==> s[i] == s[1..][i - 1];
      }
    }
  }

  lemma {:induction false} TrimEndKeeps(s: string, cs: set<char>)
    requires forall c :: c in cs ==> c !in Whitespace
    ensures NoneIn(TrimEnd(s), cs) <==> NoneIn(s, cs)
    decreases |s|
  {
    if |s| > 0 && s[|s| - 1] in Whitespace {
      TrimEndKeeps(s[..|s| - 1], cs);
    }
  }

  lemma TrimKeeps(s: string, cs: set<char>)
    requires forall c :: c in cs ==> c !in Whitespace
    ensures NoneIn(Trim(s), cs) <==> NoneIn(s, cs)
  {
    TrimStartKeeps(TrimEnd(s), cs);
    TrimEndKeeps(s, cs);
  }
}
